=== FILE: README.md ===
# keiko: a verified model of the signal-tower client

keiko is a Python client for Keiko-chan, a networked signal tower with three
lamps (red, yellow, green), a buzzer, four digital outputs, four digital
inputs and voice playback. The device speaks a line-oriented ASCII protocol:
each request is one command line ending in a carriage return, and most state
travels as an eight-character positional flag string in which `X` means
"leave this position unchanged".

This project models two layers of the client in Dafny:

- **The flag codec** (`keiko/flags.py`) is in `flags.dfy`, module `Flags`.
  It holds the position and value tables and the builders and parsers for
  lamps, buzzer, outputs, inputs and voice. The three table-driven builders
  fill a copy of the `XXXXXXXX` template in place. They are methods over a
  `char` array, each proved equal to a specification function. Round trips,
  positional layouts and the effect of a wildcard write on the device's
  register are proved about those functions.
- **The command layer** (`keiko/clients.py`, `RawClient`) is in
  `commands.dfy`, module `Commands`. It covers how each verb's command line
  is joined from its words, the `\r` framing, the 64-byte receive, the
  trailing `\r` strip and the classification of the four error tokens. The
  socket round trip is replaced by a `reply` parameter: the bytes the device
  answers with. Each call returns the framed requests it sent and its
  outcome, either the reply line or the error it raises.
- **The facade** (`keiko/clients.py`, `Client` and the handle classes) is
  in `facade.dfy`, module `Facade`. The handles only store immutable fields,
  so they are datatypes whose member functions compose the codec with the
  raw client.
- **A device model** is in `device.dfy`, module `Device`. It is not part of
  the client. `ApplyAcop` says what an ACOP write does to a unit's register:
  the flag word is overlaid, and each `X` keeps the current character. The
  lemmas in this module state what each facade write achieves without
  reading first. A lamp or output write changes exactly its own lamp or
  terminal, and a later status read returns what was written. A buzzer
  write keeps the lamps, but it writes only its own mode's bit: an
  intermittent write over a continuous buzzer still reads back as
  continuous, as the device's register keeps the other bit.

`wrappers.dfy` holds the `Option` type, which models Python's `None`.
`text.dfy` holds the Python text functions the client relies on: `str()` of
an int, `int()` of a digit string, the `'{0:02}'` format, `' '.join`, and
splitting at single spaces as the inverse of the join.

## Model

| member | source | states |
|---|---|---|
| Flags.SwapKeyAndValue | keiko/flags.py:192-193 | the inverted table maps each value's digit back to its key and has no other keys (both inverse laws) |
| Flags.LampValuesTable | keiko/flags.py:11-16 | the inverted lamp table is exactly 0 to off, 1 to on, 2 to blink, 3 to quickblink |
| Flags.DoValuesTable | keiko/flags.py:95-98 | the inverted output table is exactly 0 to off, 1 to on |
| Flags.DiValuesTable | keiko/flags.py:137-140 | the inverted input table is exactly 0 to off, 1 to on |
| Flags.LampFlags | keiko/flags.py:33-36 | 8 characters; each given colour's state digit at its table position, the wildcard at every other position |
| Flags.BuildLampFlags | keiko/flags.py:19-36 | filling the template in place, one given colour at a time, yields exactly the lamp flags of the assignment |
| Flags.ParseLampFlags | keiko/flags.py:39-46 | every colour is decoded, each from the state digit at its own position |
| Flags.ParseLampFlagsAt | keiko/flags.py:39-46 | the parse holds exactly red, yellow and green, decoded from characters 0, 1 and 2 |
| Flags.ParseLampFlagsUnique | keiko/flags.py:39-46 | the parse is the only full assignment whose digits the reply shows |
| Flags.ParseLampFlagsPrefix | keiko/flags.py:39-46 | the parse reads only the first three characters |
| Flags.LampRoundTrip | keiko/flags.py:19-46 | parsing the flags of a full three-colour assignment gives the assignment back |
| Flags.LampReplyRoundTrip | keiko/flags.py:19-46 | building from a parsed 8-character reply gives its first three characters followed by five wildcards |
| Flags.LampWriteKeepsOthers | keiko/flags.py:33-36 | overlaying a partial assignment's flags on any lamp register updates exactly the named colours and keeps the others |
| Flags.BuzzerFlags | keiko/flags.py:69-76 | off puts 0 at both mode positions; a mode puts 1 at its own position and leaves the other mode's bit a wildcard; all other positions are wildcards |
| Flags.BuzzerPositions | keiko/flags.py:50-53 | the buzzer modes sit at positions 3 and 4 |
| Flags.BuildBuzzerFlags | keiko/flags.py:56-76 | filling the template in place yields exactly the buzzer flags of the mode |
| Flags.Scan | keiko/flags.py:82-85 | the result is the first mode in table order whose bit is 1, or off when no bit is set |
| Flags.ParseBuzzerFlags | keiko/flags.py:79-85 | continuous if and only if bit 3 is 1; intermittent if and only if bit 3 is not 1 and bit 4 is; off if and only if neither is |
| Flags.BuzzerRoundTrip | keiko/flags.py:56-85 | each of the three modes survives building and parsing |
| Flags.BuzzerWrite | keiko/flags.py:69-85 | after a write, off and continuous read back as written; intermittent reads back as continuous exactly when the continuous bit was already set |
| Flags.BuzzerFlagsKeepLamps | keiko/flags.py:69-76 | a buzzer write leaves every lamp's state unchanged |
| Flags.BuzzerBothBits | keiko/flags.py:82-85 | any buzzer reply with both mode bits set (positions 3 and 4) reads as continuous |
| Flags.DoFlags | keiko/flags.py:114-117 | 8 characters; terminal t's bit at position t - 1, the wildcard at every other position |
| Flags.BuildDoFlags | keiko/flags.py:101-117 | filling the template in place, one given terminal at a time, yields exactly the output flags of the assignment |
| Flags.ParseDoFlags | keiko/flags.py:120-127 | terminals 1 to 4 are decoded, terminal t from position t - 1 |
| Flags.ParseDoFlagsUnique | keiko/flags.py:120-127 | the parse is the only full assignment whose bits the reply shows |
| Flags.DoRoundTrip | keiko/flags.py:101-127 | parsing the flags of a full four-terminal assignment gives the assignment back |
| Flags.DoReplyRoundTrip | keiko/flags.py:101-127 | building from a parsed 8-character reply gives its first four characters followed by four wildcards |
| Flags.DoWriteKeepsOthers | keiko/flags.py:114-117 | overlaying a partial assignment's flags on any output register updates exactly the named terminals and keeps the others |
| Flags.ParseDiFlags | keiko/flags.py:143-150 | terminals 1 to 4 are decoded; terminal t is on if and only if character t - 1 is 1 |
| Flags.DiMatchesDo | keiko/flags.py:120-150 | inputs and outputs share one layout: a reply decodes to the same states either way |
| Flags.BuildVoiceFlags | keiko/flags.py:169-176 | at least 8 characters, exactly 8 when number and repeat are within 0 to 99; the first character is 0 if and only if the state is stop |
| Flags.Slice | keiko/flags.py:186-187 | `s[i:j]` has length j - i, clipped to the end of the string (empty past it), and character k is `s[i + k]` |
| Flags.ParseVoiceFlags | keiko/flags.py:179-188 | stop if and only if the first character is 0; otherwise the number is int() of characters 1-2 and the repeat int() of characters 4-5, each below 100 |
| Flags.ParseVoiceDeviceReply | keiko/flags.py:179-188 | a device reply outside the builder's layout, `10911010`, decodes as voice 9 repeated 10 times |
| Flags.VoiceRoundTrip | keiko/flags.py:154-188 | stop, and playing any number with any repeat count within 0 to 99, survive building and parsing |
| Flags.VoiceReplyRoundTrip | keiko/flags.py:154-188 | every reply in the builder's layout (`00000000`, `1NN00000`, `1NN1RR00` with RR not 00) survives parsing and building unchanged |
| Text.NatToString | keiko/clients.py:299 | `str(n)` of a natural is a non-empty run of digits with no leading zero: one digit below 10, at least two from 10 on |
| Text.DecimalValueOfNatToString | keiko/flags.py:186-187 | `int(str(n)) == n` |
| Text.DecimalValueBound | keiko/flags.py:186-187 | `int` of k digits is below 10^k, and of one digit is that digit |
| Text.DecimalValueOfTwoDigits | keiko/flags.py:186-187 | a field of at most two digits reads back below 100 |
| Text.IntToString | keiko/clients.py:299 | `str(n)` has no space and ends in a digit; it reads back as n, after a minus sign when n is negative; its digits have no leading zero except for 0 itself |
| Text.IntToStringInjective | keiko/clients.py:299 | different ints print differently |
| Text.Format02 | keiko/flags.py:174-176 | `'{0:02}'` is at least two characters, exactly two for 0 to 99, and reads back as the value when it is non-negative; from 10 up it has no leading zero; a negative value is a minus sign and the digits of its magnitude, without a leading zero |
| Text.Format02OfField | keiko/flags.py:174-188 | formatting the value of a two-digit field gives the field back, leading zero included |
| Text.JoinLength | keiko/clients.py:298-302 | `' '.join` of no words is empty, and of n words is as long as the words plus n - 1 separating spaces |
| Text.JoinCons | keiko/clients.py:299 | joining a word onto a non-empty list puts exactly one space between them |
| Text.JoinAppend | keiko/clients.py:302 | joining two joined lists equals joining their concatenation |
| Text.SplitJoin | keiko/clients.py:299-302 | splitting a joined line at spaces gives back its words, when no word holds a space |
| Commands.BuildData | keiko/clients.py:273-278 | the data is the command followed by exactly one carriage return |
| Commands.StripData | keiko/clients.py:280-283 | the result is a prefix of the data, does not end in a carriage return, and everything removed is a carriage return |
| Commands.StripCarriageReturns | keiko/clients.py:280-283 | stripping undoes appending any number of carriage returns to a line that does not end in one |
| Commands.StripBuildData | keiko/clients.py:273-283 | stripping a framed command gives the command back, when it does not already end in a carriage return |
| Commands.Recv | keiko/clients.py:270 | at most 64 bytes, a prefix of the answer, and all of it when it is shorter |
| Commands.Line | keiko/clients.py:270-271 | the line `_send` returns is a prefix of the first 64 bytes of the answer, ends in no carriage return, and drops only carriage returns from those 64 bytes |
| Commands.LineOfFramed | keiko/clients.py:264-283 | a framed or unframed answer shorter than 64 bytes reads back as the line itself |
| Commands.Classify | keiko/clients.py:285-295 | an error if and only if the line is ER01, ER02, ER03 or ER04, with that token's reason; any other line passes through unchanged |
| Commands.ReasonsIdentifyTokens | keiko/clients.py:287-292 | different error tokens raise different reasons |
| Commands.FlagLinePasses | keiko/clients.py:293-295 | a reply that does not start with E is returned unchanged |
| Commands.AcopCommand | keiko/clients.py:297-304 | `ACOP -u <unit>` without flags; with flags, the flags and the `-w <wait> -t <time>` suffix follow |
| Commands.AcopWriteTokens | keiko/clients.py:297-304 | a write splits into ACOP, -u, the unit, the flags, -w, the wait, -t, the time |
| Commands.OptionalArgCommand | keiko/clients.py:309-352 | the bare verb without the argument, else the verb, one space and the argument, never a timing suffix |
| Commands.RlyCommand | keiko/clients.py:369-376 | the bare relay command without an action; with one, the action and the timing suffix follow |
| Commands.TerminalCommand | keiko/clients.py:405-411 | the verb followed by `-n <term>` |
| Commands.TerminalTokens | keiko/clients.py:405-411 | the terminal selector is always the second and third word |
| Commands.RyotCommand | keiko/clients.py:413-421 | `RYOT -n <term>` always; the action and the timing suffix follow only when an action is given |
| Commands.RyotTokens | keiko/clients.py:413-421 | a timed action splits into RYOT, -n, the term, the action, -w, the wait, -t, the time |
| Commands.NewRawClient | keiko/clients.py:260-262 | the raw client keeps the address and the port, which defaults to 60000 |
| Commands.RawClient.Execute | keiko/clients.py:285-295 | sends exactly the framed command; an error exactly when the reply line is an error token, carrying that token's reason; else the reply line |
| Commands.RawClient.Acop | keiko/clients.py:297-304 | sends `ACOP -u <unit>\r` without flags, and `ACOP -u <unit> <flags> -w <wait> -t <time>\r` with them; defaults unit 1, wait 0, time 0 |
| Commands.RawClient.Alof | keiko/clients.py:306-307 | sends exactly `ALOF\r` |
| Commands.RawClient.Ckdi | keiko/clients.py:309-315 | sends `CKDI\r`, or `CKDI <flags>\r` when flags are given |
| Commands.RawClient.Ckid | keiko/clients.py:317-323 | sends `CKID\r`, or `CKID <param>\r` when a parameter is given |
| Commands.RawClient.Ckip | keiko/clients.py:325-331 | sends `CKIP\r`, or `CKIP <flags>\r` when flags are given |
| Commands.RawClient.Ckst | keiko/clients.py:333-334 | sends exactly `CKST\r` |
| Commands.RawClient.Help | keiko/clients.py:336-337 | sends exactly `HELP\r` |
| Commands.RawClient.Lgpw | keiko/clients.py:339-344 | sends `LGPW\r`, or `LGPW <password>\r` when a new password is given |
| Commands.RawClient.Pwst | keiko/clients.py:346-352 | sends `PWST\r`, or `PWST <param>\r` when a parameter is given |
| Commands.RawClient.Rdcd | keiko/clients.py:354-355 | sends exactly `RDCD\r` |
| Commands.RawClient.Rdcn | keiko/clients.py:357-358 | sends exactly `RDCN\r` |
| Commands.RawClient.Rdmn | keiko/clients.py:360-361 | sends exactly `RDMN\r` |
| Commands.RawClient.Rdpd | keiko/clients.py:363-364 | sends exactly `RDPD\r` |
| Commands.RawClient.Rdsn | keiko/clients.py:366-367 | sends exactly `RDSN\r` |
| Commands.RawClient.Rly | keiko/clients.py:369-400 | relay n sends `RLY<n>\r`, or `RLY<n> <action> -w <wait> -t <time>\r` when an action is given |
| Commands.RawClient.Rops | keiko/clients.py:402-403 | sends exactly `ROPS\r` |
| Commands.RawClient.Ryin | keiko/clients.py:405-407 | sends `RYIN -n <term>\r` |
| Commands.RawClient.Ryof | keiko/clients.py:409-411 | sends `RYOF -n <term>\r` |
| Commands.RawClient.Ryot | keiko/clients.py:413-421 | sends `RYOT -n <term>\r`, or with the action and timing suffix when an action is given |
| Commands.RawClient.Spop | keiko/clients.py:423-429 | sends `SPOP\r`, or `SPOP <flags>\r` when flags are given |
| Commands.RawClient.Utid | keiko/clients.py:431-432 | sends exactly `UTID\r` |
| Commands.RawClient.Vern | keiko/clients.py:434-435 | sends exactly `VERN\r` |
| Facade.NewClient | keiko/clients.py:21-27 | every handle shares the client's raw client; the lamp handles are red, yellow and green |
| Facade.NewLampHolder | keiko/clients.py:33-37 | one lamp handle per colour over the given raw client |
| Facade.LampHolder.Status | keiko/clients.py:39-44 | sends only `ACOP -u 1\r`; raises the reason of an error token; otherwise red, yellow and green, decoded from the first three characters of the reply |
| Facade.LampHolder.Off | keiko/clients.py:46-51 | sends only `ACOP -u 1 000XXXXX -w <wait> -t 0\r` and raises exactly on an error token, with its reason |
| Facade.Lamp.Status | keiko/clients.py:61-66 | sends only `ACOP -u 1\r`; raises the reason of an error token; otherwise decodes this lamp's colour from its position |
| Facade.Lamp.SetState | keiko/clients.py:68-70 | sends only the unit 1 write of this lamp's state flags with the wait and time and raises exactly on an error token, with its reason |
| Facade.Lamp.On | keiko/clients.py:72-74 | sends only the unit 1 write of this lamp's on digit and raises exactly on an error token, with its reason |
| Facade.Lamp.Blink | keiko/clients.py:76-78 | sends only the unit 1 write of this lamp's blink digit and raises exactly on an error token, with its reason |
| Facade.Lamp.QuickBlink | keiko/clients.py:80-82 | sends only the unit 1 write of this lamp's quickblink digit and raises exactly on an error token, with its reason |
| Facade.Lamp.Off | keiko/clients.py:84-86 | sends only the unit 1 write of this lamp's off digit, with time 0 and raises exactly on an error token, with its reason |
| Facade.Buzzer.Status | keiko/clients.py:95-100 | sends only `ACOP -u 1\r`; raises on an error token; otherwise the mode decoded from bits 3 and 4 |
| Facade.Buzzer.SetState | keiko/clients.py:102-104 | sends only the unit 1 write of the mode's flags and raises exactly on an error token, with its reason |
| Facade.Buzzer.On | keiko/clients.py:106-108 | sends `ACOP -u 1 XXX1XXXX -w <wait> -t <time>\r`, the same request as continuous and raises exactly on an error token, with its reason |
| Facade.Buzzer.Continuous | keiko/clients.py:110-112 | sends `ACOP -u 1 XXX1XXXX -w <wait> -t <time>\r` and raises exactly on an error token, with its reason |
| Facade.Buzzer.Intermittent | keiko/clients.py:114-116 | sends `ACOP -u 1 XXXX1XXX -w <wait> -t <time>\r` and raises exactly on an error token, with its reason |
| Facade.Buzzer.Off | keiko/clients.py:118-120 | sends `ACOP -u 1 XXX00XXX -w <wait> -t 0\r` and raises exactly on an error token, with its reason |
| Facade.DOHolder.Terminal | keiko/clients.py:129-130 | the handle of the given terminal over the same raw client |
| Facade.DOHolder.Status | keiko/clients.py:132-137 | sends only `ACOP -u 2\r`; raises on an error token; otherwise decodes terminals 1 to 4 |
| Facade.DO.Status | keiko/clients.py:147-152 | sends only `ACOP -u 2\r`; raises on an error token; otherwise decodes this terminal from position term - 1 |
| Facade.DO.SetState | keiko/clients.py:154-156 | sends only the unit 2 write of this terminal's bit and raises exactly on an error token, with its reason |
| Facade.DO.On | keiko/clients.py:158-160 | sends only the unit 2 write of this terminal's on bit and raises exactly on an error token, with its reason |
| Facade.DO.Off | keiko/clients.py:162-164 | sends only the unit 2 write of this terminal's off bit, with time 0 and raises exactly on an error token, with its reason |
| Facade.DIHolder.Terminal | keiko/clients.py:173-174 | the handle of the given terminal over the same raw client |
| Facade.DIHolder.Status | keiko/clients.py:176-181 | sends only `ROPS\r`; raises on an error token; otherwise terminal t is on if and only if character t - 1 is 1 |
| Facade.DI.Status | keiko/clients.py:191-196 | sends only `ROPS\r`; raises on an error token; otherwise this terminal is on if and only if its character is 1 |
| Facade.VoiceHolder.Numbered | keiko/clients.py:205-206 | the handle of the given voice number over the same raw client |
| Facade.VoiceHolder.Status | keiko/clients.py:208-213 | sends only `SPOP\r`; raises on an error token with its reason; otherwise stop if and only if the first character is 0, and a playing state's number and repeat are int() of characters 1-2 and 4-5 |
| Facade.VoiceHolder.Stop | keiko/clients.py:215-218 | sends only `SPOP 00000000\r` and raises exactly on an error token, with its reason |
| Facade.Voice.Status | keiko/clients.py:227-238 | sends only `SPOP\r`; raises on an error token; otherwise play if and only if a voice is playing and its number is this voice's |
| Facade.Voice.SetState | keiko/clients.py:240-242 | sends only `SPOP` with the voice flags of the state and raises exactly on an error token, with its reason |
| Facade.Voice.Play | keiko/clients.py:244-246 | sends `SPOP 1NN00000\r` for 0 times, else `SPOP 1NN1TT00\r`; one time by default and raises exactly on an error token, with its reason |
| Facade.Voice.Repeat | keiko/clients.py:248-250 | sends `SPOP 1NN00000\r`, the request of playing 0 times and raises exactly on an error token, with its reason |
| Facade.Voice.Stop | keiko/clients.py:252-254 | sends only `SPOP 00000000\r` and raises exactly on an error token, with its reason |
| Device.AcopWriteApplies | keiko/clients.py:297-304 | a framed ACOP write overlays exactly its flags on its own unit's register |
| Device.AcopReadKeeps | keiko/clients.py:297-304 | an ACOP read leaves every register unchanged |
| Device.AcopOtherUnitKeeps | keiko/clients.py:297-304 | a write on one unit leaves every other unit's register unchanged |
| Device.LampSetApplies | keiko/clients.py:68-70 | a lamp write overlays that lamp's flags on the unit 1 register |
| Device.LampSetEffect | keiko/clients.py:68-70 | on any lamp register, a lamp write sets that lamp and keeps the other two, with no read first |
| Device.LampStatusReads | keiko/clients.py:61-66 | reading a lamp register gives back the lamp's state, through framing and classification |
| Device.LampSetThenStatus | keiko/clients.py:61-70 | after a lamp write, that lamp's status reads the state written |
| Device.LampHolderOffEffect | keiko/clients.py:46-51 | after the holder's off, every lamp is off |
| Device.BuzzerSetApplies | keiko/clients.py:102-104 | a buzzer write overlays the mode's flags on the unit 1 register |
| Device.BuzzerSetEffect | keiko/clients.py:102-120 | after a buzzer write, off and continuous read back as written; intermittent reads as continuous when the continuous bit was set |
| Device.BuzzerSetKeepsLamps | keiko/clients.py:102-104 | a buzzer write keeps every lamp |
| Device.LampSetKeepsBuzzer | keiko/clients.py:68-70 | a lamp write keeps the buzzer mode |
| Device.DoSetApplies | keiko/clients.py:154-156 | an output write overlays its flags on the unit 2 register and leaves unit 1 alone |
| Device.DoSetEffect | keiko/clients.py:154-164 | on any output register, an output write sets that terminal and keeps the other three; unit 1 is untouched |
| Device.DoStatusReads | keiko/clients.py:148-152 | reading an output register gives back the terminal's state, through framing and classification |
| Device.DoSetThenStatus | keiko/clients.py:148-164 | after an output write, that terminal's status reads the state written |
| Device.SpopWords | keiko/clients.py:423-429 | an SPOP write splits into the verb and the flags |
| Device.VoicePlayRequest | keiko/clients.py:240-250 | playing sends one SPOP write whose words are the verb and the voice flags of the number and count |
| Device.VoicePlayThenStatus | keiko/clients.py:227-238 | a device reporting the flags a play sends shows this voice playing and every other voice stopped |
| Device.VoiceStopThenStatus | keiko/clients.py:215-254 | both stop methods send the same request, and a stopped device shows every voice stopped |

## Left out

- Socket I/O in `RawClient._send` (keiko/clients.py:264-271) is left out: connecting, `sendall` and closing the socket. The device's answer is the `reply` parameter of every call. `recv(64)` is modelled as taking the first 64 bytes; a `recv` that returns fewer bytes than the device sent is not modelled.
- The address and port are stored but never used, since there is no connection.
- Byte/str conversion (keiko/clients.py:275-282) is left out. Payloads are character strings, and a non-ASCII command that would fail to encode is not modelled.
- keiko/app.py (the HTTP adapter and its range checks on colours, terminals and voice numbers) and setup.py are not part of this model. The facade itself does not validate.
- Bad input: an unknown colour, state or terminal, or a reply with a digit outside a table, fails in Python with a `KeyError`, an `IndexError` or a `ValueError`. Here these cases are preconditions: `LampReply`, `BuzzerReply` (a reply too short for the scan of bits 3 and 4), `TerminalReply`, `VoiceReply`, `term in DoDigits` and `term in DiDigits`. Colours and states are datatypes, so an unknown one cannot be written.
- Flags.ParseBuzzerFlags: the source scans a dict in its iteration order. The model fixes the order to continuous, then intermittent, the order of the table's literal.
- Flags.ParseVoiceFlags: Python's `int()` also accepts surrounding whitespace, a sign and underscores in a field. The model requires each field to be one or two decimal digits (`VoiceReply`).
- Flags.SwapKeyAndValue: requires a table whose values are single digits and pairwise distinct. Every table in the source is such a table.
- Commands.RawClient.Rly: the eight methods `rly1` to `rly8` are one function with the relay number 1 to 8.
- Raised exceptions are `Err` results carrying the reason text. The exception class (a bare `Exception`) is not modelled. A write's `None` result is `Ok(())`.
- Flags.BuildVoiceFlags: a number or repeat count outside 0 to 99 is formatted as Python would, but those results have no round-trip lemma.

=== FILE: commands.dfy ===
/**
 * The low-level client: how each device command line is built, framed on the
 * wire and classified on return. The socket round trip itself is replaced by
 * the bytes the device answers with, passed in as `reply`.
 */
module Commands {
  import opened Wrappers
  import opened Text

  /** What `_execute` yields: the reply line, or the exception it raises. */
  datatype Result<T> = Ok(value: T) | Err(reason: string)

  /** One use of the client: every framed request it sends, in order, and its outcome. */
  datatype Call<T> = Call(sent: seq<string>, outcome: Result<T>)

  /** The call sent exactly one framed request, this one. */
  predicate SendsOnly<T>(call: Call<T>, request: string) {
    |call.sent| == 1 && call.sent[0] == request
  }

  /** Default TCP port of the device. */
  const DefaultPort: int := 60000

  /** How many bytes one `recv` takes from the device's answer. */
  const RecvSize: nat := 64

  /*** Framing ***/

  /** `_build_data`: the command followed by exactly one carriage return. */
  function BuildData(command: string): (data: string)
    ensures |data| == |command| + 1
    ensures data[..|command|] == command && data[|command|] == '\r'
  {
    command + "\r"
  }

  /** `_strip_data`: Python's `rstrip('\r')`, every trailing carriage return and nothing else. */
  function StripData(data: string): (line: string)
    ensures |line| <= |data| && line == data[..|line|]
    ensures |line| == 0 || line[|line| - 1] != '\r'
    ensures forall i :: |line| <= i < |data| ==> data[i] == '\r'
    decreases |data|
  {
    if |data| > 0 && data[|data| - 1] == '\r' then StripData(data[..|data| - 1]) else data
  }

  /** A run of k carriage returns. */
  function CarriageReturns(k: nat): (crs: string)
    ensures |crs| == k && forall i :: 0 <= i < k ==> crs[i] == '\r'
  {
    seq(k, i => '\r')
  }

  /** Stripping is the inverse of appending carriage returns to a line that does not end in one. */
  lemma StripCarriageReturns(line: string, k: nat)
    requires |line| == 0 || line[|line| - 1] != '\r'
    ensures StripData(line + CarriageReturns(k)) == line
  {
    var data := line + CarriageReturns(k);
    var stripped := StripData(data);
    if |line| > 0 {
      assert data[|line| - 1] == line[|line| - 1];
    }
    if |stripped| > 0 {
      assert stripped[|stripped| - 1] == data[|stripped| - 1];
    }
    assert stripped == data[..|line|] == line;
  }

  /** Stripping a framed command gives the command back, unless it already ended in a carriage return. */
  lemma StripBuildData(command: string)
    requires |command| == 0 || command[|command| - 1] != '\r'
    ensures StripData(BuildData(command)) == command
  {
    StripCarriageReturns(command, 1);
    assert CarriageReturns(1) == "\r";
  }

  /** `recv(64)`: at most the first 64 bytes of the device's answer. */
  function Recv(reply: string): (data: string)
    ensures |data| <= RecvSize && |data| <= |reply| && data == reply[..|data|]
    ensures |data| < RecvSize ==> data == reply
  {
    if |reply| <= RecvSize then reply else reply[..RecvSize]
  }

  /** The reply line `_send` hands back: what one `recv` took, with the carriage returns stripped. */
  function Line(reply: string): (line: string)
    ensures |line| <= RecvSize && |line| <= |reply| && line == reply[..|line|]
    ensures |line| == 0 || line[|line| - 1] != '\r'
    ensures forall i :: |line| <= i < |reply| && i < RecvSize ==> reply[i] == '\r'
  {
    StripData(Recv(reply))
  }

  /** A framed answer short enough for one `recv` reads back as the line it frames. */
  lemma LineOfFramed(line: string)
    requires |line| < RecvSize
    requires |line| == 0 || line[|line| - 1] != '\r'
    ensures Line(BuildData(line)) == line
    ensures Line(line) == line
  {
    StripBuildData(line);
    StripCarriageReturns(line, 0);
    assert line + CarriageReturns(0) == line;
  }

  /*** Classification ***/

  /** The device's error tokens and the reason `_execute` raises for each. */
  const ErrorReasons: map<string, string> := map[
    "ER01" := "Invalid command",
    "ER02" := "Wrong EOL code",
    "ER03" := "Wrong arguments",
    "ER04" := "Command failed"]

  /** `_execute`'s check: an error token raises with its reason, anything else is returned unchanged. */
  function Classify(line: string): (r: Result<string>)
    ensures r.Err? <==> line in {"ER01", "ER02", "ER03", "ER04"}
    ensures r.Ok? ==> r.value == line
    ensures r.Err? ==> r.reason == ErrorReasons[line]
  {
    if line in ErrorReasons then Err(ErrorReasons[line]) else Ok(line)
  }

  /** Different error tokens raise different reasons, so the reason names the token. */
  lemma ReasonsIdentifyTokens(a: string, b: string)
    requires Classify(a).Err? && Classify(b).Err?
    requires Classify(a).reason == Classify(b).reason
    ensures a == b
  {
  }

  /** A flag reply never starts like an error token, so it passes through. */
  lemma FlagLinePasses(line: string)
    requires |line| == 0 || line[0] != 'E'
    ensures Classify(line) == Ok(line)
  {
    assert "ER01"[0] == 'E' && "ER02"[0] == 'E' && "ER03"[0] == 'E' && "ER04"[0] == 'E';
  }

  /*** Command lines ***/

  /** Python's truth test on an optional string argument: present and non-empty. */
  predicate Given(arg: Option<string>) {
    arg.Some? && arg.value != ""
  }

  /** The `-w <wait> -t <time>` suffix of a timed action. */
  function Timing(wait: int, time: int): seq<string> {
    ["-w", IntToString(wait), "-t", IntToString(time)]
  }

  /** The timing words after a leading word, joined. */
  lemma TimingText(first: string, wait: int, time: int)
    ensures Join([first] + Timing(wait, time)) ==
      first + " -w " + IntToString(wait) + " -t " + IntToString(time)
  {
    var w, t := IntToString(wait), IntToString(time);
    JoinCons(first, Timing(wait, time));
    JoinCons("-w", [w, "-t", t]);
    JoinCons(w, ["-t", t]);
    JoinCons("-t", [t]);
    assert "-w" + " " == "-w " && "-t" + " " == "-t ";
    TimingConcat(first, w, t);
  }

  /** Regrouping the pieces of a joined timing suffix. */
  lemma TimingConcat(first: string, w: string, t: string)
    ensures first + " " + ("-w " + (w + " " + ("-t " + t))) == first + " -w " + w + " -t " + t
  {
    var head := first + " -w " + w;
    calc {
      first + " " + ("-w " + (w + " " + ("-t " + t)));
    == { Associative(first + " ", "-w ", w + " " + ("-t " + t)); Associative(first, " ", "-w "); }
      first + " -w " + (w + " " + ("-t " + t));
    == { Associative(first + " -w ", w + " ", "-t " + t); Associative(first + " -w ", w, " "); }
      head + " " + ("-t " + t);
    == { Associative(head + " ", "-t ", t); Associative(head, " ", "-t "); }
      head + " -t " + t;
    }
  }

  /** A verb and a selector with its value, joined. */
  lemma SelectorText(verb: string, selector: string, value: string)
    ensures Join([verb, selector, value]) == verb + " " + selector + " " + value
  {
    JoinCons(verb, [selector, value]);
    JoinCons(selector, [value]);
  }

  lemma AcopReadText(unit: int)
    ensures Join(["ACOP", "-u", IntToString(unit)]) == "ACOP -u " + IntToString(unit)
  {
    SelectorText("ACOP", "-u", IntToString(unit));
  }

  /** A command line, then an argument and the timing words, joined. */
  lemma SuffixText(command: string, arg: string, wait: int, time: int)
    ensures Join([command, Join([arg] + Timing(wait, time))]) ==
      command + " " + arg + " -w " + IntToString(wait) + " -t " + IntToString(time)
  {
    var w, t := IntToString(wait), IntToString(time);
    TimingText(arg, wait, time);
    JoinCons(command, [Join([arg] + Timing(wait, time))]);
    var head := command + " ";
    calc {
      head + (arg + " -w " + w + " -t " + t);
    == { Associative(head, arg + " -w " + w + " -t ", t); }
      head + (arg + " -w " + w + " -t ") + t;
    == { Associative(head, arg + " -w " + w, " -t "); }
      head + (arg + " -w " + w) + " -t " + t;
    == { Associative(head, arg + " -w ", w); Associative(head, arg, " -w "); }
      head + arg + " -w " + w + " -t " + t;
    }
  }

  /** The words of a timed RYOT action after the verb, joined behind it. */
  lemma RyotArgsText(term: int, param: string, wait: int, time: int)
    ensures Join(["RYOT", Join(["-n", IntToString(term), param] + Timing(wait, time))]) ==
      "RYOT -n " + IntToString(term) + " " + param +
      " -w " + IntToString(wait) + " -t " + IntToString(time)
  {
    var n := IntToString(term);
    var timed := [param] + Timing(wait, time);
    var head := "RYOT -n " + n + " ";
    assert ["-n", n, param] + Timing(wait, time) == ["-n", n] + timed;
    SelectorTail("RYOT", "-n", n, timed);
    assert "RYOT" + " " + "-n" + " " == "RYOT -n ";
    TimingText(param, wait, time);
    var w, t := IntToString(wait), IntToString(time);
    calc {
      head + Join(timed);
    == { Associative(head, param + " -w " + w + " -t ", t); }
      head + (param + " -w " + w + " -t ") + t;
    == { Associative(head, param + " -w " + w, " -t "); }
      head + (param + " -w " + w) + " -t " + t;
    == { Associative(head, param + " -w ", w); Associative(head, param, " -w "); }
      head + param + " -w " + w + " -t " + t;
    }
  }

  /** A verb, a selector with its value and further words, joined in two steps. */
  lemma SelectorTail(verb: string, selector: string, value: string, rest: seq<string>)
    requires |rest| >= 1
    ensures Join([verb, Join([selector, value] + rest)]) ==
      verb + " " + selector + " " + value + " " + Join(rest)
  {
    var inner := value + " " + Join(rest);
    var args := selector + " " + inner;
    JoinCons(value, rest);
    assert [selector, value] + rest == [selector] + ([value] + rest);
    JoinCons(selector, [value] + rest);
    JoinCons(verb, [args]);
    var head := verb + " " + selector + " ";
    calc {
      verb + " " + args;
    == { Associative(verb + " ", selector + " ", inner); Associative(verb + " ", selector, " "); }
      head + inner;
    == { Associative(head, value + " ", Join(rest)); Associative(head, value, " "); }
      head + value + " " + Join(rest);
    }
  }

  lemma Associative(a: string, b: string, c: string)
    ensures a + (b + c) == a + b + c
  {
  }

  /** A string ending in a non-empty word ends in that word's last character. */
  lemma LastOfConcat(head: string, word: string)
    requires |word| >= 1
    ensures (head + word)[|head + word| - 1] == word[|word| - 1]
  {
  }

  /** The two unit reads the facade sends. */
  lemma UnitReadRequests()
    ensures "ACOP -u " + IntToString(1) + "\r" == "ACOP -u 1\r"
    ensures "ACOP -u " + IntToString(2) + "\r" == "ACOP -u 2\r"
  {
    SmallIntStrings();
  }

  /** A zero duration ends the request in `-t 0`. */
  lemma ZeroTimeText(prefix: string)
    ensures prefix + " -t " + IntToString(0) + "\r" == prefix + " -t 0\r"
  {
    assert IntToString(0) == "0";
  }

  /** `acop`: the unit read, or the unit write of a flag string with its timing. */
  function AcopCommand(flags: Option<string>, unit: int, wait: int, time: int): (command: string)
    ensures !Given(flags) ==> command == "ACOP -u " + IntToString(unit)
    ensures Given(flags) ==> (command ==
      "ACOP -u " + IntToString(unit) + " " + flags.value +
      " -w " + IntToString(wait) + " -t " + IntToString(time))
  {
    var command := Join(["ACOP", "-u", IntToString(unit)]);
    AcopReadText(unit);
    if Given(flags) then
      var args := Join([flags.value] + Timing(wait, time));
      SuffixText(command, flags.value, wait, time);
      Join([command, args])
    else command
  }

  /** A verb with an optional single argument: `ckdi`, `ckid`, `ckip`, `lgpw`, `pwst` and `spop`. */
  function OptionalArgCommand(verb: string, arg: Option<string>): (command: string)
    ensures !Given(arg) ==> command == verb
    ensures Given(arg) ==> command == verb + " " + arg.value
  {
    if Given(arg) then
      JoinCons(verb, [arg.value]);
      Join([verb, arg.value])
    else verb
  }

  /** `_rly`: the bare relay command, or the relay command with its action and timing. */
  function RlyCommand(command: string, param: Option<string>, wait: int, time: int): (line: string)
    ensures !Given(param) ==> line == command
    ensures Given(param) ==> (line ==
      command + " " + param.value + " -w " + IntToString(wait) + " -t " + IntToString(time))
  {
    if Given(param) then
      var args := Join([param.value] + Timing(wait, time));
      SuffixText(command, param.value, wait, time);
      Join([command, args])
    else command
  }

  /** `ryin` and `ryof`: the verb and the terminal selector. */
  function TerminalCommand(verb: string, term: int): (command: string)
    ensures command == verb + " -n " + IntToString(term)
  {
    JoinCons(verb, ["-n", IntToString(term)]);
    JoinCons("-n", [IntToString(term)]);
    Join([verb, "-n", IntToString(term)])
  }

  /** `ryot`: the terminal selector always, the action and timing only when an action is given. */
  function RyotCommand(term: int, param: Option<string>, wait: int, time: int): (command: string)
    ensures !Given(param) ==> command == "RYOT -n " + IntToString(term)
    ensures Given(param) ==> (command ==
      "RYOT -n " + IntToString(term) + " " + param.value +
      " -w " + IntToString(wait) + " -t " + IntToString(time))
  {
    var command := "RYOT";
    SelectorText(command, "-n", IntToString(term));
    if Given(param) then
      var args := Join(["-n", IntToString(term), param.value] + Timing(wait, time));
      RyotArgsText(term, param.value, wait, time);
      Join([command, args])
    else Join([command, "-n", IntToString(term)])
  }

  /*** Token structure ***/

  /** The words of an ACOP write, as the device splits the line at spaces. */
  lemma AcopWriteTokens(flags: string, unit: int, wait: int, time: int)
    requires flags != "" && ' ' !in flags
    ensures Split(AcopCommand(Some(flags), unit, wait, time)) ==
      ["ACOP", "-u", IntToString(unit), flags] + Timing(wait, time)
  {
    var u := IntToString(unit);
    var prefix, timed := ["ACOP", "-u", u], [flags] + Timing(wait, time);
    var words := prefix + timed;
    assert words == ["ACOP", "-u", u, flags] + Timing(wait, time);
    JoinAppend(prefix, timed);
    AcopReadText(unit);
    JoinCons("ACOP -u " + u, [Join(timed)]);
    SuffixText("ACOP -u " + u, flags, wait, time);
    assert AcopCommand(Some(flags), unit, wait, time) == Join(words);
    TimedWordsNoSpaces("ACOP", "-u", u, flags, wait, time);
    SplitJoin(words);
  }

  /** The words of a timed relay or output action: the command words, the action, then the timing. */
  lemma RyotTokens(term: int, param: string, wait: int, time: int)
    requires param != "" && ' ' !in param
    ensures Split(RyotCommand(term, Some(param), wait, time)) ==
      ["RYOT", "-n", IntToString(term), param] + Timing(wait, time)
  {
    var rest := ["-n", IntToString(term), param] + Timing(wait, time);
    var words := ["RYOT", "-n", IntToString(term), param] + Timing(wait, time);
    assert words == ["RYOT"] + rest;
    JoinCons("RYOT", rest);
    JoinCons("RYOT", [Join(rest)]);
    TimedWordsNoSpaces("RYOT", "-n", IntToString(term), param, wait, time);
    SplitJoin(words);
  }

  /** The words of a timed action hold no space when the four leading words hold none. */
  lemma TimedWordsNoSpaces(verb: string, selector: string, value: string, arg: string, wait: int, time: int)
    requires ' ' !in verb && ' ' !in selector && ' ' !in value && ' ' !in arg
    ensures NoSpaces([verb, selector, value, arg] + Timing(wait, time))
  {
    var words := [verb, selector, value, arg] + Timing(wait, time);
    forall i | 0 <= i < |words| ensures ' ' !in words[i] {
      if i == 4 {
        assert words[i] == "-w";
      } else if i == 6 {
        assert words[i] == "-t";
      }
    }
  }

  /** A terminal selector is always the second and third word. */
  lemma TerminalTokens(verb: string, term: int)
    requires verb != "" && ' ' !in verb
    ensures Split(TerminalCommand(verb, term)) == [verb, "-n", IntToString(term)]
  {
    SplitJoin([verb, "-n", IntToString(term)]);
  }

  /*** The raw client ***/

  /**
   * `RawClient`: the address and port it would connect to, and one function
   * per device command. Each takes the bytes the device answers with.
   */
  datatype RawClient = RawClient(address: string, port: int)
  {
    /** `_execute` over `_send`: one framed request, and the classified reply line. */
    function Execute(command: string, reply: string): (call: Call<string>)
      ensures SendsOnly(call, BuildData(command))
      ensures call.outcome.Err? <==> Line(reply) in ErrorReasons
      ensures call.outcome.Err? ==> call.outcome.reason == ErrorReasons[Line(reply)]
      ensures call.outcome.Ok? ==> call.outcome.value == Line(reply)
    {
      Call([BuildData(command)], Classify(Line(reply)))
    }

    function Acop(reply: string, flags: Option<string> := None, unit: int := 1, wait: int := 0, time: int := 0): (call: Call<string>)
      ensures !Given(flags) ==> SendsOnly(call, "ACOP -u " + IntToString(unit) + "\r")
      ensures Given(flags) ==> SendsOnly(call, "ACOP -u " + IntToString(unit) + " " + flags.value +
        " -w " + IntToString(wait) + " -t " + IntToString(time) + "\r")
      ensures call.outcome == Classify(Line(reply))
    {
      Execute(AcopCommand(flags, unit, wait, time), reply)
    }

    function Alof(reply: string): (call: Call<string>)
      ensures SendsOnly(call, "ALOF\r") && call.outcome == Classify(Line(reply))
    {
      Execute("ALOF", reply)
    }

    function Ckdi(reply: string, flags: Option<string> := None): (call: Call<string>)
      ensures SendsOnly(call, if Given(flags) then "CKDI " + flags.value + "\r" else "CKDI\r")
      ensures call.outcome == Classify(Line(reply))
    {
      Execute(OptionalArgCommand("CKDI", flags), reply)
    }

    function Ckid(reply: string, param: Option<string> := None): (call: Call<string>)
      ensures SendsOnly(call, if Given(param) then "CKID " + param.value + "\r" else "CKID\r")
      ensures call.outcome == Classify(Line(reply))
    {
      Execute(OptionalArgCommand("CKID", param), reply)
    }

    function Ckip(reply: string, flags: Option<string> := None): (call: Call<string>)
      ensures SendsOnly(call, if Given(flags) then "CKIP " + flags.value + "\r" else "CKIP\r")
      ensures call.outcome == Classify(Line(reply))
    {
      Execute(OptionalArgCommand("CKIP", flags), reply)
    }

    function Ckst(reply: string): (call: Call<string>)
      ensures SendsOnly(call, "CKST\r") && call.outcome == Classify(Line(reply))
    {
      Execute("CKST", reply)
    }

    function Help(reply: string): (call: Call<string>)
      ensures SendsOnly(call, "HELP\r") && call.outcome == Classify(Line(reply))
    {
      Execute("HELP", reply)
    }

    function Lgpw(reply: string, newPassword: Option<string> := None): (call: Call<string>)
      ensures SendsOnly(call, if Given(newPassword) then "LGPW " + newPassword.value + "\r" else "LGPW\r")
      ensures call.outcome == Classify(Line(reply))
    {
      Execute(OptionalArgCommand("LGPW", newPassword), reply)
    }

    function Pwst(reply: string, param: Option<string> := None): (call: Call<string>)
      ensures SendsOnly(call, if Given(param) then "PWST " + param.value + "\r" else "PWST\r")
      ensures call.outcome == Classify(Line(reply))
    {
      Execute(OptionalArgCommand("PWST", param), reply)
    }

    function Rdcd(reply: string): (call: Call<string>)
      ensures SendsOnly(call, "RDCD\r") && call.outcome == Classify(Line(reply))
    {
      Execute("RDCD", reply)
    }

    function Rdcn(reply: string): (call: Call<string>)
      ensures SendsOnly(call, "RDCN\r") && call.outcome == Classify(Line(reply))
    {
      Execute("RDCN", reply)
    }

    function Rdmn(reply: string): (call: Call<string>)
      ensures SendsOnly(call, "RDMN\r") && call.outcome == Classify(Line(reply))
    {
      Execute("RDMN", reply)
    }

    function Rdpd(reply: string): (call: Call<string>)
      ensures SendsOnly(call, "RDPD\r") && call.outcome == Classify(Line(reply))
    {
      Execute("RDPD", reply)
    }

    function Rdsn(reply: string): (call: Call<string>)
      ensures SendsOnly(call, "RDSN\r") && call.outcome == Classify(Line(reply))
    {
      Execute("RDSN", reply)
    }

    /** `rly1` to `rly8`: relay n's command is `RLY` followed by n. */
    function Rly(relay: int, reply: string, param: Option<string> := None, wait: int := 0, time: int := 0): (call: Call<string>)
      requires 1 <= relay <= 8
      ensures !Given(param) ==> SendsOnly(call, "RLY" + [DigitChar(relay)] + "\r")
      ensures Given(param) ==> SendsOnly(call, "RLY" + [DigitChar(relay)] + " " + param.value +
        " -w " + IntToString(wait) + " -t " + IntToString(time) + "\r")
      ensures call.outcome == Classify(Line(reply))
    {
      Execute(RlyCommand("RLY" + IntToString(relay), param, wait, time), reply)
    }

    function Rops(reply: string): (call: Call<string>)
      ensures SendsOnly(call, "ROPS\r") && call.outcome == Classify(Line(reply))
    {
      Execute("ROPS", reply)
    }

    function Ryin(term: int, reply: string): (call: Call<string>)
      ensures SendsOnly(call, "RYIN -n " + IntToString(term) + "\r")
      ensures call.outcome == Classify(Line(reply))
    {
      assert "RYIN" + " -n " == "RYIN -n ";
      Execute(TerminalCommand("RYIN", term), reply)
    }

    function Ryof(term: int, reply: string): (call: Call<string>)
      ensures SendsOnly(call, "RYOF -n " + IntToString(term) + "\r")
      ensures call.outcome == Classify(Line(reply))
    {
      assert "RYOF" + " -n " == "RYOF -n ";
      Execute(TerminalCommand("RYOF", term), reply)
    }

    function Ryot(term: int, reply: string, param: Option<string> := None, wait: int := 0, time: int := 0): (call: Call<string>)
      ensures !Given(param) ==> SendsOnly(call, "RYOT -n " + IntToString(term) + "\r")
      ensures Given(param) ==> SendsOnly(call, "RYOT -n " + IntToString(term) + " " + param.value +
        " -w " + IntToString(wait) + " -t " + IntToString(time) + "\r")
      ensures call.outcome == Classify(Line(reply))
    {
      Execute(RyotCommand(term, param, wait, time), reply)
    }

    function Spop(reply: string, flags: Option<string> := None): (call: Call<string>)
      ensures SendsOnly(call, if Given(flags) then "SPOP " + flags.value + "\r" else "SPOP\r")
      ensures call.outcome == Classify(Line(reply))
    {
      Execute(OptionalArgCommand("SPOP", flags), reply)
    }

    function Utid(reply: string): (call: Call<string>)
      ensures SendsOnly(call, "UTID\r") && call.outcome == Classify(Line(reply))
    {
      Execute("UTID", reply)
    }

    function Vern(reply: string): (call: Call<string>)
      ensures SendsOnly(call, "VERN\r") && call.outcome == Classify(Line(reply))
    {
      Execute("VERN", reply)
    }
  }

  /** `RawClient(address)`: the port defaults to the device's. */
  function NewRawClient(address: string, port: int := DefaultPort): (raw: RawClient)
    ensures raw.address == address && raw.port == port
  {
    RawClient(address, port)
  }
}

=== FILE: device.dfy ===
/**
 * What the requests do to the device: a model of the device side, used to
 * state what each write achieves. It is not part of the client.
 */
module Device {
  import opened Wrappers
  import opened Text
  import opened Flags
  import opened Commands
  import opened Facade

  /** The words of a request as the device reads them: the frame stripped, split at single spaces. */
  function RequestWords(request: string): seq<string> {
    Split(StripData(request))
  }

  /**
   * The flag register of ACOP unit `unit` after the device executes `request`:
   * a write on that unit overlays its flags, each wildcard keeping the
   * register's character; any other request leaves the register as it is.
   */
  function ApplyAcop(register: string, unit: int, request: string): (next: string)
    ensures |next| == |register|
  {
    var words := RequestWords(request);
    if |words| == 8 && words[0] == "ACOP" && words[1] == "-u" && words[2] == IntToString(unit) &&
       |words[3]| == |register|
    then Overlay(register, words[3])
    else register
  }

  /** A framed ACOP write of flags without spaces overlays exactly those flags on its own unit. */
  lemma AcopWriteApplies(register: string, unit: int, flags: string, wait: int, time: int)
    requires |flags| == |register| && flags != "" && ' ' !in flags
    ensures ApplyAcop(register, unit, BuildData(AcopCommand(Some(flags), unit, wait, time))) ==
      Overlay(register, flags)
  {
    AcopWriteWords(unit, flags, wait, time);
    var words := RequestWords(BuildData(AcopCommand(Some(flags), unit, wait, time)));
    assert |words| == 8 && words[0] == "ACOP" && words[1] == "-u";
    assert words[2] == IntToString(unit) && words[3] == flags;
  }

  /** The device reads a framed ACOP write as its eight words. */
  lemma AcopWriteWords(unit: int, flags: string, wait: int, time: int)
    requires flags != "" && ' ' !in flags
    ensures RequestWords(BuildData(AcopCommand(Some(flags), unit, wait, time))) ==
      ["ACOP", "-u", IntToString(unit), flags] + Timing(wait, time)
  {
    var command := AcopCommand(Some(flags), unit, wait, time);
    var t := IntToString(time);
    var head := "ACOP -u " + IntToString(unit) + " " + flags + " -w " + IntToString(wait) + " -t ";
    assert command == head + t;
    LastOfConcat(head, t);
    StripBuildData(command);
    AcopWriteTokens(flags, unit, wait, time);
  }

  /** An ACOP read leaves every register as it is: reads send no flags. */
  lemma AcopReadKeeps(register: string, unit: int, other: int)
    ensures ApplyAcop(register, unit, BuildData(AcopCommand(None, other, 0, 0))) == register
  {
    var command := AcopCommand(None, other, 0, 0);
    var u := IntToString(other);
    assert command == "ACOP -u " + u;
    LastOfConcat("ACOP -u ", u);
    StripBuildData(command);
    AcopReadText(other);
    SplitJoin(["ACOP", "-u", u]);
    assert |RequestWords(BuildData(command))| == 3;
  }

  /** A write on one unit leaves the register of every other unit as it is. */
  lemma AcopOtherUnitKeeps(register: string, unit: int, other: int, flags: string, wait: int, time: int)
    requires other != unit && flags != "" && ' ' !in flags
    ensures ApplyAcop(register, unit, BuildData(AcopCommand(Some(flags), other, wait, time))) == register
  {
    AcopWriteWords(other, flags, wait, time);
    var words := RequestWords(BuildData(AcopCommand(Some(flags), other, wait, time)));
    assert words[2] == IntToString(other);
    IntToStringInjective(unit, other);
    assert words[2] != IntToString(unit);
  }

  /** Updating one key is taking the union with a one-key map. */
  lemma UpdateIsUnion<K, V>(m: map<K, V>, k: K, v: V)
    ensures m + map[k := v] == m[k := v]
  {
  }

  /** A union with a map holding every key of the other is that map. */
  lemma OverrideAll<K, V>(m: map<K, V>, n: map<K, V>)
    requires m.Keys <= n.Keys
    ensures m + n == n
  {
  }

  /*** Lamps ***/

  /** Lamp flags are state digits and wildcards: one word on the command line. */
  lemma LampFlagsOneWord(states: map<Color, LampState>)
    ensures ' ' !in LampFlags(states)
  {
    var flags := LampFlags(states);
    forall i | 0 <= i < |flags| ensures flags[i] != ' ' {
      if i < 3 {
        var c := if i == 0 then Red else if i == 1 then Yellow else Green;
        assert flags[i] == LampSlot(states, c);
      }
    }
  }

  /** A lamp write overlays its flags on the unit 1 register. */
  lemma LampSetApplies(lamp: Lamp, register: string, state: LampState, wait: int, time: int, reply: string)
    requires |register| == |Template|
    ensures ApplyAcop(register, 1, lamp.SetState(reply, state, wait, time).sent[0]) ==
      Overlay(register, LampFlags(map[lamp.color := state]))
  {
    var flags := LampFlags(map[lamp.color := state]);
    LampFlagsOneWord(map[lamp.color := state]);
    assert lamp.SetState(reply, state, wait, time).sent[0] == BuildData(AcopCommand(Some(flags), 1, wait, time));
    AcopWriteApplies(register, 1, flags, wait, time);
  }

  /**
   * A lamp write, applied to any lamp register the device can hold, sets that
   * lamp and keeps the other two: the client never reads before it writes.
   */
  lemma LampSetEffect(lamp: Lamp, register: string, state: LampState, wait: int, time: int, reply: string)
    requires LampReply(register) && |register| == |Template|
    ensures var next := ApplyAcop(register, 1, lamp.SetState(reply, state, wait, time).sent[0]);
      LampReply(next) && ParseLampFlags(next) == ParseLampFlags(register)[lamp.color := state]
  {
    LampSetApplies(lamp, register, state, wait, time, reply);
    LampWriteKeepsOthers(register, map[lamp.color := state]);
    UpdateIsUnion(ParseLampFlags(register), lamp.color, state);
  }

  /** Reading a lamp register gives each lamp's state: the reply passes framing and classification. */
  lemma LampStatusReads(lamp: Lamp, register: string)
    requires LampReply(register) && |register| == |Template| && register[|Template| - 1] != '\r'
    ensures LampAnswer(register)
    ensures lamp.Status(register).outcome == Ok(ParseLampFlags(register)[lamp.color])
  {
    LineOfFramed(register);
    FlagLinePasses(register);
  }

  /** After a lamp write, that lamp's status reads back the state written. */
  lemma LampSetThenStatus(lamp: Lamp, register: string, state: LampState, wait: int, time: int, reply: string)
    requires LampReply(register) && |register| == |Template| && register[|Template| - 1] != '\r'
    ensures var next := ApplyAcop(register, 1, lamp.SetState(reply, state, wait, time).sent[0]);
      LampAnswer(next) && lamp.Status(next).outcome == Ok(state)
  {
    var next := ApplyAcop(register, 1, lamp.SetState(reply, state, wait, time).sent[0]);
    var flags := LampFlags(map[lamp.color := state]);
    assert next == Overlay(register, flags) by {
      LampSetApplies(lamp, register, state, wait, time, reply);
    }
    assert LampReply(next) && ParseLampFlags(next)[lamp.color] == state by {
      LampSetEffect(lamp, register, state, wait, time, reply);
    }
    assert next[|Template| - 1] == register[|Template| - 1] by {
      assert flags[|Template| - 1] == Wildcard;
    }
    LampReadsBack(lamp, next, state);
  }

  /** A lamp register holding a state for a lamp reads back that state. */
  lemma LampReadsBack(lamp: Lamp, register: string, state: LampState)
    requires LampReply(register) && |register| == |Template| && register[|Template| - 1] != '\r'
    requires lamp.color in ParseLampFlags(register) && ParseLampFlags(register)[lamp.color] == state
    ensures LampAnswer(register) && lamp.Status(register).outcome == Ok(state)
  {
    LampStatusReads(lamp, register);
  }

  /** `LampHolder.off` turns every lamp off, whatever they showed before. */
  lemma LampHolderOffEffect(holder: LampHolder, register: string, wait: int, reply: string)
    requires LampReply(register) && |register| == |Template|
    ensures var next := ApplyAcop(register, 1, holder.Off(reply, wait).sent[0]);
      LampReply(next) &&
      ParseLampFlags(next) == map[Red := LampState.Off, Yellow := LampState.Off, Green := LampState.Off]
  {
    var states := map[Red := LampState.Off, Yellow := LampState.Off, Green := LampState.Off];
    LampFlagsOneWord(states);
    assert holder.Off(reply, wait).sent == [BuildData(AcopCommand(Some(LampFlags(states)), 1, wait, 0))];
    AcopWriteApplies(register, 1, LampFlags(states), wait, 0);
    LampWriteKeepsOthers(register, states);
    var parsed := ParseLampFlags(register);
    assert parsed.Keys <= states.Keys by {
      forall c | c in parsed ensures c in states {
        assert c.Red? || c.Yellow? || c.Green?;
      }
    }
    OverrideAll(parsed, states);
  }

  /*** Buzzer ***/

  /** A buzzer write overlays its flags on the unit 1 register. */
  lemma BuzzerSetApplies(buzzer: Buzzer, register: string, state: BuzzerState, wait: int, time: int, reply: string)
    requires |register| == |Template|
    ensures ApplyAcop(register, 1, buzzer.SetState(reply, state, wait, time).sent[0]) ==
      Overlay(register, BuzzerFlags(state))
  {
    assert buzzer.SetState(reply, state, wait, time).sent[0] ==
      BuildData(AcopCommand(Some(BuzzerFlags(state)), 1, wait, time));
    assert ' ' !in BuzzerFlags(state);
    AcopWriteApplies(register, 1, BuzzerFlags(state), wait, time);
  }

  /**
   * What a buzzer write leaves on the device: off and continuous read back as
   * written, intermittent reads back as continuous if the continuous bit was
   * already set.
   */
  lemma BuzzerSetEffect(buzzer: Buzzer, register: string, state: BuzzerState, wait: int, time: int, reply: string)
    requires |register| == |Template|
    ensures var next := ApplyAcop(register, 1, buzzer.SetState(reply, state, wait, time).sent[0]);
      BuzzerReply(next) &&
      ParseBuzzerFlags(next) == if state == Intermittent && register[3] == '1' then Continuous else state
  {
    BuzzerSetApplies(buzzer, register, state, wait, time, reply);
    BuzzerWrite(register, state);
  }

  /** A buzzer write keeps every lamp. */
  lemma BuzzerSetKeepsLamps(buzzer: Buzzer, register: string, state: BuzzerState, wait: int, time: int, reply: string)
    requires LampReply(register) && |register| == |Template|
    ensures var next := ApplyAcop(register, 1, buzzer.SetState(reply, state, wait, time).sent[0]);
      LampReply(next) && ParseLampFlags(next) == ParseLampFlags(register)
  {
    BuzzerSetApplies(buzzer, register, state, wait, time, reply);
    BuzzerFlagsKeepLamps(register, state);
  }

  /** A lamp write keeps the buzzer. */
  lemma LampSetKeepsBuzzer(lamp: Lamp, register: string, state: LampState, wait: int, time: int, reply: string)
    requires BuzzerReply(register) && |register| == |Template|
    ensures var next := ApplyAcop(register, 1, lamp.SetState(reply, state, wait, time).sent[0]);
      BuzzerReply(next) && ParseBuzzerFlags(next) == ParseBuzzerFlags(register)
  {
    LampSetApplies(lamp, register, state, wait, time, reply);
    var flags := LampFlags(map[lamp.color := state]);
    assert flags[3] == Wildcard && flags[4] == Wildcard;
    var next := Overlay(register, flags);
    assert next[3] == register[3] && next[4] == register[4];
    ParseBuzzerFlagsBits(register, next);
  }

  /*** Digital outputs ***/

  /** Output flags are bits and wildcards: one word on the command line. */
  lemma DoFlagsOneWord(states: map<int, Switch>)
    requires states.Keys <= DoDigits.Keys
    ensures ' ' !in DoFlags(states)
  {
    var flags := DoFlags(states);
    forall i | 0 <= i < |flags| ensures flags[i] != ' ' {
      if i < 4 {
        assert flags[i] == DoSlot(states, i + 1);
      }
    }
  }

  /** An output write overlays its flags on the unit 2 register and sends nothing to unit 1. */
  lemma DoSetApplies(output: DO, register: string, state: Switch, wait: int, time: int, reply: string)
    requires output.term in DoDigits && |register| == |Template|
    ensures ApplyAcop(register, 2, output.SetState(reply, state, wait, time).sent[0]) ==
      Overlay(register, DoFlags(map[output.term := state]))
    ensures ApplyAcop(register, 1, output.SetState(reply, state, wait, time).sent[0]) == register
  {
    var flags := DoFlags(map[output.term := state]);
    DoFlagsOneWord(map[output.term := state]);
    assert output.SetState(reply, state, wait, time).sent[0] == BuildData(AcopCommand(Some(flags), 2, wait, time));
    AcopWriteApplies(register, 2, flags, wait, time);
    AcopOtherUnitKeeps(register, 1, 2, flags, wait, time);
  }

  /**
   * An output write, applied to any output register, sets that terminal and
   * keeps the other three; it leaves the lamp and buzzer unit alone.
   */
  lemma DoSetEffect(output: DO, register: string, state: Switch, wait: int, time: int, reply: string)
    requires output.term in DoDigits && TerminalReply(register) && |register| == |Template|
    ensures var next := ApplyAcop(register, 2, output.SetState(reply, state, wait, time).sent[0]);
      TerminalReply(next) && ParseDoFlags(next) == ParseDoFlags(register)[output.term := state]
    ensures ApplyAcop(register, 1, output.SetState(reply, state, wait, time).sent[0]) == register
  {
    DoSetApplies(output, register, state, wait, time, reply);
    DoWriteKeepsOthers(register, map[output.term := state]);
    UpdateIsUnion(ParseDoFlags(register), output.term, state);
  }

  /** Reading an output register gives each terminal's state: the reply passes framing and classification. */
  lemma DoStatusReads(output: DO, register: string)
    requires output.term in DoDigits
    requires TerminalReply(register) && |register| == |Template| && register[|Template| - 1] != '\r'
    ensures TerminalAnswer(register)
    ensures output.Status(register).outcome == Ok(ParseDoFlags(register)[output.term])
  {
    LineOfFramed(register);
    FlagLinePasses(register);
    TerminalLayout();
    var parsed := ParseDoFlags(register);
    var outcome := output.Status(register).outcome;
    assert outcome.Ok? && SwitchChar(outcome.value) == SwitchChar(parsed[output.term]);
    SwitchCharInjective(outcome.value, parsed[output.term]);
  }

  /** After an output write, that terminal's status reads back the state written. */
  lemma DoSetThenStatus(output: DO, register: string, state: Switch, wait: int, time: int, reply: string)
    requires output.term in DoDigits
    requires TerminalReply(register) && |register| == |Template| && register[|Template| - 1] != '\r'
    ensures var next := ApplyAcop(register, 2, output.SetState(reply, state, wait, time).sent[0]);
      TerminalAnswer(next) && output.Status(next).outcome == Ok(state)
  {
    var next := ApplyAcop(register, 2, output.SetState(reply, state, wait, time).sent[0]);
    var flags := DoFlags(map[output.term := state]);
    assert next == Overlay(register, flags) by {
      DoSetApplies(output, register, state, wait, time, reply);
    }
    assert TerminalReply(next) && ParseDoFlags(next)[output.term] == state by {
      DoSetEffect(output, register, state, wait, time, reply);
    }
    assert next[|Template| - 1] == register[|Template| - 1] by {
      assert flags[|Template| - 1] == Wildcard;
    }
    DoStatusReads(output, next);
  }

  /*** Voices ***/

  /** Voice flags of values in range are digits: one word on the command line. */
  lemma VoiceFlagsOneWord(state: VoiceState)
    requires state.Playing? ==> 0 <= state.number < 100 && 0 <= state.repeat < 100
    ensures ' ' !in BuildVoiceFlags(state)
  {
    var flags := BuildVoiceFlags(state);
    if state.Playing? {
      var nn, rr := Format02(state.number), Format02(state.repeat);
      assert flags == "1" + nn + (if state.repeat == 0 then "0" else "1") + rr + "00";
      forall i | 0 <= i < |flags| ensures flags[i] != ' ' {
        if 1 <= i < 3 {
          assert flags[i] == nn[i - 1];
        } else if 4 <= i < 6 {
          assert flags[i] == rr[i - 4];
        }
      }
    }
  }

  /** The words of an SPOP write: the verb and the flags. */
  lemma SpopWords(flags: string)
    requires flags != "" && ' ' !in flags && flags[|flags| - 1] != '\r'
    ensures RequestWords(BuildData(OptionalArgCommand("SPOP", Some(flags)))) == ["SPOP", flags]
  {
    StripBuildData(OptionalArgCommand("SPOP", Some(flags)));
    SplitJoin(["SPOP", flags]);
  }

  /** Playing a voice sends one SPOP write of the voice flags. */
  lemma VoicePlayRequest(voice: Voice, times: int, reply: string)
    requires 0 <= voice.number < 100 && 0 <= times < 100
    ensures RequestWords(voice.Play(reply, times).sent[0]) ==
      ["SPOP", BuildVoiceFlags(Playing(voice.number, times))]
  {
    var flags := BuildVoiceFlags(Playing(voice.number, times));
    VoiceFlagsOneWord(Playing(voice.number, times));
    assert voice.Play(reply, times).sent == [BuildData(OptionalArgCommand("SPOP", Some(flags)))];
    SpopWords(flags);
  }

  /**
   * A device reporting the flags a voice's play sends makes that voice's
   * status play and every other voice's status stop.
   */
  lemma VoicePlayThenStatus(voice: Voice, other: Voice, times: int)
    requires 0 <= voice.number < 100 && 0 <= times < 100
    ensures var flags := BuildVoiceFlags(Playing(voice.number, times));
      VoiceAnswer(flags) && voice.Status(flags).outcome == Ok(VoiceStatus.Play) &&
      (other.number != voice.number ==> other.Status(flags).outcome == Ok(VoiceStatus.Stop))
  {
    var state := Playing(voice.number, times);
    var flags := BuildVoiceFlags(state);
    VoiceRoundTrip(state);
    VoiceFlagsOneWord(state);
    LineOfFramed(flags);
    FlagLinePasses(flags);
  }

  /** Both stop requests are the same request, and a stopped device reports every voice stopped. */
  lemma VoiceStopThenStatus(holder: VoiceHolder, voice: Voice, reply: string)
    ensures RequestWords(holder.Stop(reply).sent[0]) == ["SPOP", "00000000"]
    ensures holder.Stop(reply).sent == voice.Stop(reply).sent
    ensures VoiceAnswer("00000000") && voice.Status("00000000").outcome == Ok(VoiceStatus.Stop)
  {
    var flags := BuildVoiceFlags(VoiceState.Stop);
    VoiceFlagsOneWord(VoiceState.Stop);
    assert holder.Stop(reply).sent == [BuildData(OptionalArgCommand("SPOP", Some(flags)))];
    SpopWords(flags);
    LineOfFramed(flags);
    FlagLinePasses(flags);
  }
}

=== FILE: facade.dfy ===
/**
 * The high-level client: handles for the lamps, the buzzer, the digital
 * outputs and inputs and the voices. Every handle only stores the raw client
 * and its own selector; a read sends the bare query and decodes the reply, a
 * write sends the wildcard flags of the one thing it changes, without reading
 * first.
 */
module Facade {
  import opened Wrappers
  import opened Text
  import opened Flags
  import opened Commands

  /*** Outcomes ***/

  /** The raw call's error, raised unchanged by a handle with another result type. */
  function Failed<T>(call: Call<string>): (failed: Call<T>)
    requires call.outcome.Err?
  {
    Call(call.sent, Err(call.outcome.reason))
  }

  /** A write's outcome: the reply is discarded, an error is raised. */
  function Done(call: Call<string>): Call<()> {
    Call(call.sent, if call.outcome.Err? then Err(call.outcome.reason) else Ok(()))
  }

  /** A write raises exactly when the device answers with an error token, and with that token's reason. */
  predicate RaisesOnError(call: Call<()>, reply: string) {
    (call.outcome.Err? <==> Line(reply) in ErrorReasons) &&
    (call.outcome.Err? ==> call.outcome.reason == ErrorReasons[Line(reply)])
  }

  /** The device answers a unit read with an error token or a reply the lamp parser accepts. */
  predicate LampAnswer(reply: string) {
    Line(reply) in ErrorReasons || LampReply(Line(reply))
  }

  predicate BuzzerAnswer(reply: string) {
    Line(reply) in ErrorReasons || BuzzerReply(Line(reply))
  }

  predicate TerminalAnswer(reply: string) {
    Line(reply) in ErrorReasons || TerminalReply(Line(reply))
  }

  predicate VoiceAnswer(reply: string) {
    Line(reply) in ErrorReasons || VoiceReply(Line(reply))
  }

  /** `Voice.status`: whether this voice is the one playing. */
  datatype VoiceStatus = Play | Stop

  /** The SPOP line of a play request, written out. */
  lemma VoicePlayText(number: int, times: int)
    ensures times == 0 ==> "SPOP " + BuildVoiceFlags(Playing(number, times)) + "\r" == "SPOP 1" + Format02(number) + "00000\r"
    ensures times != 0 ==> ("SPOP " + BuildVoiceFlags(Playing(number, times)) + "\r" ==
      "SPOP 1" + Format02(number) + "1" + Format02(times) + "00\r")
  {
    var nn := Format02(number);
    if times == 0 {
      assert "SPOP " + ("1" + nn + "00000") + "\r" == "SPOP 1" + nn + "00000\r";
    } else {
      var rr := Format02(times);
      assert "SPOP " + ("1" + nn + "1" + rr + "00") + "\r" == "SPOP 1" + nn + "1" + rr + "00\r";
    }
  }

  /** The SPOP line of a stop request, written out. */
  lemma StopRequest()
    ensures "SPOP " + BuildVoiceFlags(VoiceState.Stop) + "\r" == "SPOP 00000000\r"
  {
  }

  /*** Handles ***/

  /** `Client`: the raw client and one handle per device part, all sharing it. */
  datatype Client = Client(raw: RawClient, lamps: LampHolder, buzzer: Buzzer, outputs: DOHolder,
                           inputs: DIHolder, voices: VoiceHolder)
  {
    /** Every handle talks through the client's own raw client. */
    predicate Shared() {
      lamps.raw == raw && lamps.red.raw == raw && lamps.yellow.raw == raw && lamps.green.raw == raw &&
      buzzer.raw == raw && outputs.raw == raw && inputs.raw == raw && voices.raw == raw
    }
  }

  /** `Client(address, port)`: a raw client for the address, and the handles over it. */
  function NewClient(address: string, port: int := DefaultPort): (client: Client)
    ensures client.raw == RawClient(address, port) && client.Shared()
    ensures client.lamps.red.color == Red && client.lamps.yellow.color == Yellow &&
      client.lamps.green.color == Green
  {
    var raw := NewRawClient(address, port);
    Client(raw, NewLampHolder(raw), Buzzer(raw), DOHolder(raw), DIHolder(raw), VoiceHolder(raw))
  }

  /** `LampHolder(raw)`: one lamp handle per colour. */
  function NewLampHolder(raw: RawClient): (holder: LampHolder)
    ensures holder.raw == raw
    ensures holder.red == Lamp(raw, Red) && holder.yellow == Lamp(raw, Yellow) && holder.green == Lamp(raw, Green)
  {
    LampHolder(raw, Lamp(raw, Red), Lamp(raw, Yellow), Lamp(raw, Green))
  }

  datatype LampHolder = LampHolder(raw: RawClient, red: Lamp, yellow: Lamp, green: Lamp)
  {
    /** `LampHolder.status`: reads unit 1 and decodes every colour. */
    function Status(reply: string): (call: Call<map<Color, LampState>>)
      requires LampAnswer(reply)
      ensures SendsOnly(call, "ACOP -u 1\r")
      ensures call.outcome.Err? <==> Line(reply) in ErrorReasons
      ensures call.outcome.Err? ==> call.outcome.reason == ErrorReasons[Line(reply)]
      ensures call.outcome.Ok? ==> (|Line(reply)| >= 3 && call.outcome.value.Keys == {Red, Yellow, Green} &&
        LampChar(call.outcome.value[Red]) == Line(reply)[0] &&
        LampChar(call.outcome.value[Yellow]) == Line(reply)[1] &&
        LampChar(call.outcome.value[Green]) == Line(reply)[2])
    {
      var read := raw.Acop(reply);
      assert SendsOnly(read, "ACOP -u 1\r") by { UnitReadRequests(); }
      if read.outcome.Err? then Failed(read)
      else
        var line := read.outcome.value;
        assert line == Line(reply) && LampReply(line);
        ParseLampFlagsAt(line);
        Call(read.sent, Ok(ParseLampFlags(line)))
    }

    /** `LampHolder.off`: one write turning all three lamps off, with no duration. */
    function Off(reply: string, wait: int := 0): (call: Call<()>)
      ensures SendsOnly(call, "ACOP -u 1 000XXXXX -w " + IntToString(wait) + " -t 0\r")
      ensures RaisesOnError(call, reply)
    {
      var flags := LampFlags(map[Red := LampState.Off, Yellow := LampState.Off, Green := LampState.Off]);
      assert flags == "000XXXXX" by {
        assert flags[0] == flags[LampDigits[Red]];
        assert flags[1] == flags[LampDigits[Yellow]];
        assert flags[2] == flags[LampDigits[Green]];
      }
      assert "ACOP -u " + IntToString(1) + " " + "000XXXXX" + " -w " == "ACOP -u 1 000XXXXX -w ";
      ZeroTimeText("ACOP -u 1 000XXXXX -w " + IntToString(wait));
      Done(raw.Acop(reply, Some(flags), wait := wait))
    }
  }

  datatype Lamp = Lamp(raw: RawClient, color: Color)
  {
    /** `Lamp.status`: reads unit 1 and decodes this lamp's colour. */
    function Status(reply: string): (call: Call<LampState>)
      requires LampAnswer(reply)
      ensures SendsOnly(call, "ACOP -u 1\r")
      ensures call.outcome.Err? <==> Line(reply) in ErrorReasons
      ensures call.outcome.Err? ==> call.outcome.reason == ErrorReasons[Line(reply)]
      ensures call.outcome.Ok? ==> color in LampDigits && LampChar(call.outcome.value) == Line(reply)[LampDigits[color]]
    {
      assert color.Red? || color.Yellow? || color.Green?;
      var read := raw.Acop(reply);
      assert SendsOnly(read, "ACOP -u 1\r") by { UnitReadRequests(); }
      if read.outcome.Err? then Failed(read) else Call(read.sent, Ok(ParseLampFlags(read.outcome.value)[color]))
    }

    /** `Lamp._set`: writes this lamp's state digit into the wildcard template on unit 1. */
    function SetState(reply: string, state: LampState, wait: int := 0, time: int := 0): (call: Call<()>)
      ensures SendsOnly(call, "ACOP -u 1 " + LampFlags(map[color := state]) +
        " -w " + IntToString(wait) + " -t " + IntToString(time) + "\r")
      ensures RaisesOnError(call, reply)
    {
      var flags := LampFlags(map[color := state]);
      assert "ACOP -u " + IntToString(1) + " " == "ACOP -u 1 ";
      Done(raw.Acop(reply, Some(flags), wait := wait, time := time))
    }

    function On(reply: string, wait: int := 0, time: int := 0): (call: Call<()>)
      ensures SendsOnly(call, "ACOP -u 1 " + LampFlags(map[color := LampState.On]) +
        " -w " + IntToString(wait) + " -t " + IntToString(time) + "\r")
      ensures RaisesOnError(call, reply)
    {
      SetState(reply, LampState.On, wait, time)
    }

    function Blink(reply: string, wait: int := 0, time: int := 0): (call: Call<()>)
      ensures SendsOnly(call, "ACOP -u 1 " + LampFlags(map[color := LampState.Blink]) +
        " -w " + IntToString(wait) + " -t " + IntToString(time) + "\r")
      ensures RaisesOnError(call, reply)
    {
      SetState(reply, LampState.Blink, wait, time)
    }

    function QuickBlink(reply: string, wait: int := 0, time: int := 0): (call: Call<()>)
      ensures SendsOnly(call, "ACOP -u 1 " + LampFlags(map[color := LampState.QuickBlink]) +
        " -w " + IntToString(wait) + " -t " + IntToString(time) + "\r")
      ensures RaisesOnError(call, reply)
    {
      SetState(reply, LampState.QuickBlink, wait, time)
    }

    /** `Lamp.off`: takes a wait but no duration; the duration sent is 0. */
    function Off(reply: string, wait: int := 0): (call: Call<()>)
      ensures SendsOnly(call, "ACOP -u 1 " + LampFlags(map[color := LampState.Off]) +
        " -w " + IntToString(wait) + " -t 0\r")
      ensures RaisesOnError(call, reply)
    {
      ZeroTimeText("ACOP -u 1 " + LampFlags(map[color := LampState.Off]) + " -w " + IntToString(wait));
      SetState(reply, LampState.Off, wait)
    }
  }

  datatype Buzzer = Buzzer(raw: RawClient)
  {
    /** `Buzzer.status`: reads unit 1 and decodes the mode bits. */
    function Status(reply: string): (call: Call<BuzzerState>)
      requires BuzzerAnswer(reply)
      ensures SendsOnly(call, "ACOP -u 1\r")
      ensures call.outcome.Err? <==> Line(reply) in ErrorReasons
      ensures call.outcome.Err? ==> call.outcome.reason == ErrorReasons[Line(reply)]
      ensures call.outcome.Ok? ==>
        (call.outcome.value == BuzzerState.Continuous <==> BuzzerBit(Line(reply), BuzzerState.Continuous)) &&
        (call.outcome.value == BuzzerState.Intermittent <==>
           !BuzzerBit(Line(reply), BuzzerState.Continuous) && BuzzerBit(Line(reply), BuzzerState.Intermittent))
    {
      var read := raw.Acop(reply);
      assert SendsOnly(read, "ACOP -u 1\r") by { UnitReadRequests(); }
      if read.outcome.Err? then Failed(read) else Call(read.sent, Ok(ParseBuzzerFlags(read.outcome.value)))
    }

    /** `Buzzer._set`: writes the mode's flags on unit 1. */
    function SetState(reply: string, state: BuzzerState, wait: int := 0, time: int := 0): (call: Call<()>)
      ensures SendsOnly(call, "ACOP -u 1 " + BuzzerFlags(state) +
        " -w " + IntToString(wait) + " -t " + IntToString(time) + "\r")
      ensures RaisesOnError(call, reply)
    {
      assert "ACOP -u " + IntToString(1) + " " == "ACOP -u 1 ";
      Done(raw.Acop(reply, Some(BuzzerFlags(state)), wait := wait, time := time))
    }

    /** `Buzzer.on`: the same request as continuous. */
    function On(reply: string, wait: int := 0, time: int := 0): (call: Call<()>)
      ensures SendsOnly(call, "ACOP -u 1 XXX1XXXX -w " + IntToString(wait) + " -t " + IntToString(time) + "\r")
      ensures RaisesOnError(call, reply)
    {
      Continuous(reply, wait, time)
    }

    function Continuous(reply: string, wait: int := 0, time: int := 0): (call: Call<()>)
      ensures SendsOnly(call, "ACOP -u 1 XXX1XXXX -w " + IntToString(wait) + " -t " + IntToString(time) + "\r")
      ensures RaisesOnError(call, reply)
    {
      assert "ACOP -u 1 " + BuzzerFlags(BuzzerState.Continuous) + " -w " == "ACOP -u 1 XXX1XXXX -w ";
      SetState(reply, BuzzerState.Continuous, wait, time)
    }

    function Intermittent(reply: string, wait: int := 0, time: int := 0): (call: Call<()>)
      ensures SendsOnly(call, "ACOP -u 1 XXXX1XXX -w " + IntToString(wait) + " -t " + IntToString(time) + "\r")
      ensures RaisesOnError(call, reply)
    {
      assert "ACOP -u 1 " + BuzzerFlags(BuzzerState.Intermittent) + " -w " == "ACOP -u 1 XXXX1XXX -w ";
      SetState(reply, BuzzerState.Intermittent, wait, time)
    }

    /** `Buzzer.off`: clears both mode bits, with no duration. */
    function Off(reply: string, wait: int := 0): (call: Call<()>)
      ensures SendsOnly(call, "ACOP -u 1 XXX00XXX -w " + IntToString(wait) + " -t 0\r")
      ensures RaisesOnError(call, reply)
    {
      assert "ACOP -u 1 " + BuzzerFlags(BuzzerState.Off) + " -w " == "ACOP -u 1 XXX00XXX -w ";
      ZeroTimeText("ACOP -u 1 XXX00XXX -w " + IntToString(wait));
      SetState(reply, BuzzerState.Off, wait)
    }
  }

  datatype DOHolder = DOHolder(raw: RawClient)
  {
    /** `DOHolder(term)`: the handle of one output terminal. */
    function Terminal(term: int): (output: DO)
      ensures output.raw == raw && output.term == term
    {
      DO(raw, term)
    }

    /** `DOHolder.status`: reads unit 2 and decodes every terminal. */
    function Status(reply: string): (call: Call<map<int, Switch>>)
      requires TerminalAnswer(reply)
      ensures SendsOnly(call, "ACOP -u 2\r")
      ensures call.outcome.Err? <==> Line(reply) in ErrorReasons
      ensures call.outcome.Err? ==> call.outcome.reason == ErrorReasons[Line(reply)]
      ensures call.outcome.Ok? ==> (call.outcome.value.Keys == {1, 2, 3, 4} &&
        forall t :: t in call.outcome.value ==> SwitchChar(call.outcome.value[t]) == Line(reply)[t - 1])
    {
      var read := raw.Acop(reply, unit := 2);
      assert SendsOnly(read, "ACOP -u 2\r") by { UnitReadRequests(); }
      if read.outcome.Err? then Failed(read)
      else
        var line := read.outcome.value;
        assert line == Line(reply) && TerminalReply(line);
        var states := ParseDoFlags(line);
        assert states.Keys == {1, 2, 3, 4};
        Call(read.sent, Ok(states))
    }
  }

  datatype DO = DO(raw: RawClient, term: int)
  {
    /** `DO.status`: reads unit 2 and decodes this terminal, which must be one of 1-4 once a reply is decoded. */
    function Status(reply: string): (call: Call<Switch>)
      requires TerminalAnswer(reply)
      requires Line(reply) !in ErrorReasons ==> term in DoDigits
      ensures SendsOnly(call, "ACOP -u 2\r")
      ensures call.outcome.Err? <==> Line(reply) in ErrorReasons
      ensures call.outcome.Err? ==> call.outcome.reason == ErrorReasons[Line(reply)]
      ensures call.outcome.Ok? ==> SwitchChar(call.outcome.value) == Line(reply)[term - 1]
    {
      var read := raw.Acop(reply, unit := 2);
      assert SendsOnly(read, "ACOP -u 2\r") by { UnitReadRequests(); }
      if read.outcome.Err? then Failed(read)
      else
        var line := read.outcome.value;
        assert line == Line(reply) && TerminalReply(line);
        ParseDoFlagsAt(line, term);
        Call(read.sent, Ok(ParseDoFlags(line)[term]))
    }

    /** `DO._set`: writes this terminal's bit into the wildcard template on unit 2. */
    function SetState(reply: string, state: Switch, wait: int := 0, time: int := 0): (call: Call<()>)
      requires term in DoDigits
      ensures SendsOnly(call, "ACOP -u 2 " + DoFlags(map[term := state]) +
        " -w " + IntToString(wait) + " -t " + IntToString(time) + "\r")
      ensures RaisesOnError(call, reply)
    {
      assert "ACOP -u " + IntToString(2) + " " == "ACOP -u 2 ";
      Done(raw.Acop(reply, Some(DoFlags(map[term := state])), 2, wait, time))
    }

    function On(reply: string, wait: int := 0, time: int := 0): (call: Call<()>)
      requires term in DoDigits
      ensures SendsOnly(call, "ACOP -u 2 " + DoFlags(map[term := Switch.On]) +
        " -w " + IntToString(wait) + " -t " + IntToString(time) + "\r")
      ensures RaisesOnError(call, reply)
    {
      SetState(reply, Switch.On, wait, time)
    }

    /** `DO.off`: takes a wait but no duration; the duration sent is 0. */
    function Off(reply: string, wait: int := 0): (call: Call<()>)
      requires term in DoDigits
      ensures SendsOnly(call, "ACOP -u 2 " + DoFlags(map[term := Switch.Off]) +
        " -w " + IntToString(wait) + " -t 0\r")
      ensures RaisesOnError(call, reply)
    {
      ZeroTimeText("ACOP -u 2 " + DoFlags(map[term := Switch.Off]) + " -w " + IntToString(wait));
      SetState(reply, Switch.Off, wait)
    }
  }

  datatype DIHolder = DIHolder(raw: RawClient)
  {
    /** `DIHolder(term)`: the handle of one input terminal. */
    function Terminal(term: int): (input: DI)
      ensures input.raw == raw && input.term == term
    {
      DI(raw, term)
    }

    /** `DIHolder.status`: reads the inputs and decodes every terminal. */
    function Status(reply: string): (call: Call<map<int, Switch>>)
      requires TerminalAnswer(reply)
      ensures SendsOnly(call, "ROPS\r")
      ensures call.outcome.Err? <==> Line(reply) in ErrorReasons
      ensures call.outcome.Err? ==> call.outcome.reason == ErrorReasons[Line(reply)]
      ensures call.outcome.Ok? ==> (call.outcome.value.Keys == {1, 2, 3, 4} &&
        forall t :: t in call.outcome.value ==> (call.outcome.value[t] == Switch.On <==> Line(reply)[t - 1] == '1'))
    {
      var read := raw.Rops(reply);
      if read.outcome.Err? then Failed(read) else Call(read.sent, Ok(ParseDiFlags(read.outcome.value)))
    }
  }

  datatype DI = DI(raw: RawClient, term: int)
  {
    /** `DI.status`: reads the inputs and decodes this terminal, which must be one of 1-4 once a reply is decoded. */
    function Status(reply: string): (call: Call<Switch>)
      requires TerminalAnswer(reply)
      requires Line(reply) !in ErrorReasons ==> term in DiDigits
      ensures SendsOnly(call, "ROPS\r")
      ensures call.outcome.Err? <==> Line(reply) in ErrorReasons
      ensures call.outcome.Err? ==> call.outcome.reason == ErrorReasons[Line(reply)]
      ensures call.outcome.Ok? ==> (call.outcome.value == Switch.On <==> Line(reply)[term - 1] == '1')
    {
      var read := raw.Rops(reply);
      if read.outcome.Err? then Failed(read) else Call(read.sent, Ok(ParseDiFlags(read.outcome.value)[term]))
    }
  }

  datatype VoiceHolder = VoiceHolder(raw: RawClient)
  {
    /** `VoiceHolder(number)`: the handle of one voice. */
    function Numbered(number: int): (voice: Voice)
      ensures voice.raw == raw && voice.number == number
    {
      Voice(raw, number)
    }

    /** `VoiceHolder.status`: reads the voice state and decodes it. */
    function Status(reply: string): (call: Call<VoiceState>)
      requires VoiceAnswer(reply)
      ensures SendsOnly(call, "SPOP\r")
      ensures call.outcome.Err? <==> Line(reply) in ErrorReasons
      ensures call.outcome.Err? ==> call.outcome.reason == ErrorReasons[Line(reply)]
      ensures call.outcome.Ok? ==> (call.outcome.value == VoiceState.Stop <==> Line(reply)[0] == '0')
      ensures call.outcome.Ok? && call.outcome.value.Playing? ==>
        call.outcome.value.number == DecimalValue(Slice(Line(reply), 1, 3)) &&
        call.outcome.value.repeat == DecimalValue(Slice(Line(reply), 4, 6))
    {
      var read := raw.Spop(reply);
      if read.outcome.Err? then Failed(read) else Call(read.sent, Ok(ParseVoiceFlags(read.outcome.value)))
    }

    /** `VoiceHolder.stop`: stops whatever voice is playing. */
    function Stop(reply: string): (call: Call<()>)
      ensures SendsOnly(call, "SPOP 00000000\r")
      ensures RaisesOnError(call, reply)
    {
      var call := Done(raw.Spop(reply, Some(BuildVoiceFlags(VoiceState.Stop))));
      assert SendsOnly(call, "SPOP 00000000\r") by { StopRequest(); }
      call
    }
  }

  datatype Voice = Voice(raw: RawClient, number: int)
  {
    /** `Voice.status`: play exactly when a voice is playing and it is this one. */
    function Status(reply: string): (call: Call<VoiceStatus>)
      requires VoiceAnswer(reply)
      ensures SendsOnly(call, "SPOP\r")
      ensures call.outcome.Err? <==> Line(reply) in ErrorReasons
      ensures call.outcome.Err? ==> call.outcome.reason == ErrorReasons[Line(reply)]
      ensures call.outcome.Ok? ==>
        (call.outcome.value == VoiceStatus.Play <==>
           Line(reply)[0] != '0' && DecimalValue(Slice(Line(reply), 1, 3)) == number)
    {
      var read := raw.Spop(reply);
      if read.outcome.Err? then Failed(read)
      else
        var state := ParseVoiceFlags(read.outcome.value);
        if state == VoiceState.Stop then Call(read.sent, Ok(VoiceStatus.Stop))
        else if state.number == number then Call(read.sent, Ok(VoiceStatus.Play))
        else Call(read.sent, Ok(VoiceStatus.Stop))
    }

    /** `Voice._set`: writes the voice flags of a state. */
    function SetState(reply: string, state: VoiceState): (call: Call<()>)
      ensures SendsOnly(call, "SPOP " + BuildVoiceFlags(state) + "\r")
      ensures RaisesOnError(call, reply)
    {
      Done(raw.Spop(reply, Some(BuildVoiceFlags(state))))
    }

    /** `Voice.play`: plays this voice `times` times, once by default; 0 repeats it forever. */
    function Play(reply: string, times: int := 1): (call: Call<()>)
      ensures times == 0 ==> SendsOnly(call, "SPOP 1" + Format02(number) + "00000\r")
      ensures times != 0 ==> SendsOnly(call, "SPOP 1" + Format02(number) + "1" + Format02(times) + "00\r")
      ensures RaisesOnError(call, reply)
    {
      VoicePlayText(number, times);
      SetState(reply, Playing(number, times))
    }

    /** `Voice.repeat`: plays this voice forever, the request of playing it 0 times. */
    function Repeat(reply: string): (call: Call<()>)
      ensures SendsOnly(call, "SPOP 1" + Format02(number) + "00000\r")
      ensures RaisesOnError(call, reply)
    {
      Play(reply, 0)
    }

    /** `Voice.stop`: stops any voice, not only this one. */
    function Stop(reply: string): (call: Call<()>)
      ensures SendsOnly(call, "SPOP 00000000\r")
      ensures RaisesOnError(call, reply)
    {
      var call := SetState(reply, VoiceState.Stop);
      assert SendsOnly(call, "SPOP 00000000\r") by { StopRequest(); }
      call
    }
  }
}

=== FILE: flags.dfy ===
/**
 * The flag codec: translation between device states and the fixed-width
 * positional flag strings of the command protocol (keiko/flags.py).
 *
 * Strings sent to the device start from an all-wildcard template, and the
 * wildcard `X` tells the device to leave that position as it is. Strings
 * received from the device carry digits only.
 */
module Flags {
  import opened Text

  datatype Color = Red | Yellow | Green
  datatype LampState = Off | On | Blink | QuickBlink
  datatype BuzzerState = Off | Continuous | Intermittent
  /** The state of one digital output or input terminal. */
  datatype Switch = Off | On
  /** `repeat` is the total number of plays; 0 plays forever. */
  datatype VoiceState = Stop | Playing(number: int, repeat: int)

  const Wildcard: char := 'X'
  const Template: string := "XXXXXXXX"

  /*** Position and value tables ***/

  const LampDigits: map<Color, nat> := map[Red := 0, Yellow := 1, Green := 2]
  const LampStates: map<LampState, nat> :=
    map[LampState.Off := 0, LampState.On := 1, Blink := 2, QuickBlink := 3]

  const BuzzerDigits: map<BuzzerState, nat> := map[Continuous := 3, Intermittent := 4]
  /** The order in which the parser tries the buzzer modes: the table's own order. */
  const BuzzerOrder: seq<BuzzerState> := [Continuous, Intermittent]

  const DoDigits: map<int, nat> := map[1 := 0, 2 := 1, 3 := 2, 4 := 3]
  const DoStates: map<Switch, nat> := map[Switch.Off := 0, Switch.On := 1]

  const DiDigits: map<int, nat> := map[1 := 0, 2 := 1, 3 := 2, 4 := 3]
  const DiStates: map<Switch, nat> := map[Switch.Off := 0, Switch.On := 1]

  /**
   * Inverts a value table: the digit character of each value leads back to
   * its state. The source's tables hold distinct one-digit values.
   */
  function SwapKeyAndValue<S>(table: map<S, nat>): (swapped: map<char, S>)
    requires forall s :: s in table ==> table[s] < 10
    requires forall s, t :: s in table && t in table && table[s] == table[t] ==> s == t
    ensures forall s :: s in table ==> DigitChar(table[s]) in swapped && swapped[DigitChar(table[s])] == s
    ensures forall ch :: ch in swapped ==> swapped[ch] in table && DigitChar(table[swapped[ch]]) == ch
  {
    map s | s in table :: DigitChar(table[s]) := s
  }

  const LampValues: map<char, LampState> := SwapKeyAndValue(LampStates)
  const DoValues: map<char, Switch> := SwapKeyAndValue(DoStates)
  const DiValues: map<char, Switch> := SwapKeyAndValue(DiStates)

  /** The lamp value table's digits are exactly 0-3. */
  lemma LampValuesTable()
    ensures LampValues == map['0' := LampState.Off, '1' := LampState.On, '2' := Blink, '3' := QuickBlink]
  {
    assert LampValues.Keys == {'0', '1', '2', '3'} by {
      forall ch | ch in LampValues ensures ch in {'0', '1', '2', '3'} {
        var s := LampValues[ch];
        assert DigitChar(LampStates[s]) == ch;
      }
      assert LampValues[DigitChar(LampStates[QuickBlink])] == QuickBlink;
      assert LampValues[DigitChar(LampStates[Blink])] == Blink;
      assert LampValues[DigitChar(LampStates[LampState.On])] == LampState.On;
      assert LampValues[DigitChar(LampStates[LampState.Off])] == LampState.Off;
    }
  }

  /** The output value table's digits are exactly 0 and 1. */
  lemma DoValuesTable()
    ensures DoValues == map['0' := Switch.Off, '1' := Switch.On]
  {
    assert DoValues.Keys == {'0', '1'} by {
      forall ch | ch in DoValues ensures ch in {'0', '1'} {
        var s := DoValues[ch];
        assert DigitChar(DoStates[s]) == ch;
      }
      assert DoValues[DigitChar(DoStates[Switch.On])] == Switch.On;
      assert DoValues[DigitChar(DoStates[Switch.Off])] == Switch.Off;
    }
  }

  /** The input value table's digits are exactly 0 and 1. */
  lemma DiValuesTable()
    ensures DiValues == map['0' := Switch.Off, '1' := Switch.On]
  {
    assert DiValues.Keys == {'0', '1'} by {
      forall ch | ch in DiValues ensures ch in {'0', '1'} {
        var s := DiValues[ch];
        assert DigitChar(DiStates[s]) == ch;
      }
      assert DiValues[DigitChar(DiStates[Switch.On])] == Switch.On;
      assert DiValues[DigitChar(DiStates[Switch.Off])] == Switch.Off;
    }
  }

  /** How the device applies a flag string: a wildcard keeps the current character. */
  function Overlay(current: string, flags: string): (next: string)
    requires |current| == |flags|
    ensures |next| == |current|
  {
    seq(|current|, i requires 0 <= i < |current| => if flags[i] == Wildcard then current[i] else flags[i])
  }

  /*** Lamps ***/

  function LampChar(state: LampState): char {
    assert state.Off? || state.On? || state.Blink? || state.QuickBlink?;
    DigitChar(LampStates[state])
  }

  function LampSlot(states: map<Color, LampState>, c: Color): char {
    if c in states then LampChar(states[c]) else Wildcard
  }

  /**
   * The lamp flags for a partial assignment of states to colours: each given
   * colour's state digit at the colour's position, the wildcard elsewhere.
   */
  function LampFlags(states: map<Color, LampState>): (flags: string)
    ensures |flags| == |Template|
    ensures forall c :: c in LampDigits ==> flags[LampDigits[c]] == LampSlot(states, c)
    ensures forall i :: 3 <= i < |flags| ==> flags[i] == Wildcard
  {
    [LampSlot(states, Red), LampSlot(states, Yellow), LampSlot(states, Green)] + "XXXXX"
  }

  /** `build_lamp_flags`: writes each given colour's digit into a copy of the template. */
  method BuildLampFlags(states: map<Color, LampState>) returns (flags: string)
    ensures flags == LampFlags(states)
  {
    var flagList := new char[|Template|](i requires 0 <= i < |Template| => Template[i]);
    var pending := states.Keys;
    while pending != {}
      invariant pending <= states.Keys
      invariant flagList[..] == LampFlags(states - pending)
      decreases pending
    {
      var color :| color in pending;
      LampFlagsStep(states, pending, color);
      flagList[LampDigits[color]] := LampChar(states[color]);
      pending := pending - {color};
    }
    assert states - pending == states;
    flags := flagList[..];
  }

  /** Writing one more colour's digit extends the flags of the colours written so far. */
  lemma LampFlagsStep(states: map<Color, LampState>, pending: set<Color>, color: Color)
    requires pending <= states.Keys && color in pending
    ensures color in LampDigits
    ensures LampFlags(states - (pending - {color})) ==
      LampFlags(states - pending)[LampDigits[color] := LampChar(states[color])]
  {
    var before, after := states - pending, states - (pending - {color});
    assert color.Red? || color.Yellow? || color.Green?;
    forall c | c in LampDigits && c != color ensures LampSlot(after, c) == LampSlot(before, c) {
    }
  }

  /** A lamp reply the parser accepts: a state digit 0-3 at each of the three lamp positions. */
  predicate LampReply(flags: string) {
    |flags| >= 3 && forall i :: 0 <= i < 3 ==> '0' <= flags[i] <= '3'
  }

  /** Every lamp state's digit is a key of the inverted table, leading back to that state. */
  lemma LampCharIsValue(state: LampState)
    ensures LampChar(state) in LampValues && LampValues[LampChar(state)] == state
    ensures '0' <= LampChar(state) <= '3'
  {
    LampValuesTable();
  }

  /** `parse_lamp_flags`: every colour's state, read at the colour's position. */
  function ParseLampFlags(flags: string): (states: map<Color, LampState>)
    requires LampReply(flags)
    ensures states.Keys == LampDigits.Keys
    ensures forall c :: c in states ==> LampChar(states[c]) == flags[LampDigits[c]]
  {
    LampValuesTable();
    map c | c in LampDigits :: LampValues[flags[LampDigits[c]]]
  }

  /** The parse is the only assignment of all three colours whose digits the reply shows. */
  lemma ParseLampFlagsUnique(flags: string, states: map<Color, LampState>)
    requires LampReply(flags)
    requires forall c :: c in LampDigits ==> c in states && LampChar(states[c]) == flags[LampDigits[c]]
    ensures ParseLampFlags(flags) == states
  {
    var parsed := ParseLampFlags(flags);
    ParseLampFlagsAt(flags);
    assert LampDigits[Red] == 0 && LampDigits[Yellow] == 1 && LampDigits[Green] == 2;
    LampCharInjective(parsed[Red], states[Red]);
    LampCharInjective(parsed[Yellow], states[Yellow]);
    LampCharInjective(parsed[Green], states[Green]);
    SameLamps(parsed, states);
  }

  /** Two assignments of the three lamps are equal when they agree on each. */
  lemma SameLamps(a: map<Color, LampState>, b: map<Color, LampState>)
    requires Red in a && Yellow in a && Green in a && Red in b && Yellow in b && Green in b
    requires a[Red] == b[Red] && a[Yellow] == b[Yellow] && a[Green] == b[Green]
    ensures a == b
  {
    forall c ensures c in a && c in b && a[c] == b[c] {
      assert c.Red? || c.Yellow? || c.Green?;
    }
  }

  /** The lamp parse colour by colour: red, yellow and green from the first three characters. */
  lemma ParseLampFlagsAt(flags: string)
    requires LampReply(flags)
    ensures ParseLampFlags(flags).Keys == {Red, Yellow, Green}
    ensures LampChar(ParseLampFlags(flags)[Red]) == flags[0]
    ensures LampChar(ParseLampFlags(flags)[Yellow]) == flags[1]
    ensures LampChar(ParseLampFlags(flags)[Green]) == flags[2]
  {
    var states := ParseLampFlags(flags);
    assert LampDigits.Keys == {Red, Yellow, Green};
    assert LampDigits[Red] == 0 && LampDigits[Yellow] == 1 && LampDigits[Green] == 2;
  }

  /** The lamp parse reads only the first three characters. */
  lemma ParseLampFlagsPrefix(a: string, b: string)
    requires LampReply(a) && LampReply(b) && a[..3] == b[..3]
    ensures ParseLampFlags(a) == ParseLampFlags(b)
  {
    assert a[0] == b[0] && a[1] == b[1] && a[2] == b[2] by {
      assert a[0] == a[..3][0] && a[1] == a[..3][1] && a[2] == a[..3][2];
    }
    var parsed := ParseLampFlags(a);
    assert b[0] == b[LampDigits[Red]] && b[1] == b[LampDigits[Yellow]] && b[2] == b[LampDigits[Green]];
    ParseLampFlagsUnique(b, parsed);
  }

  lemma LampCharInjective(a: LampState, b: LampState)
    requires LampChar(a) == LampChar(b)
    ensures a == b
  {
  }

  /** Building from a state that names all three colours and parsing it back gives that state. */
  lemma LampRoundTrip(states: map<Color, LampState>)
    requires states.Keys == LampDigits.Keys
    ensures LampReply(LampFlags(states))
    ensures ParseLampFlags(LampFlags(states)) == states
  {
    var flags := LampFlags(states);
    forall c | c in LampDigits ensures '0' <= flags[LampDigits[c]] <= '3' {
      LampCharIsValue(states[c]);
    }
    assert flags[0] == flags[LampDigits[Red]];
    assert flags[1] == flags[LampDigits[Yellow]];
    assert flags[2] == flags[LampDigits[Green]];
    ParseLampFlagsUnique(flags, states);
  }

  /** Parsing a reply and building from the result keeps the lamp digits and wildcards the rest. */
  lemma LampReplyRoundTrip(flags: string)
    requires LampReply(flags) && |flags| == |Template|
    ensures LampFlags(ParseLampFlags(flags)) == flags[..3] + "XXXXX"
  {
    var built := LampFlags(ParseLampFlags(flags));
    assert built[0] == flags[LampDigits[Red]];
    assert built[1] == flags[LampDigits[Yellow]];
    assert built[2] == flags[LampDigits[Green]];
  }

  /** After a lamp write, colour c's position holds its new digit if named, its old digit otherwise. */
  predicate LampWriteAt(current: string, states: map<Color, LampState>, c: Color)
    requires |current| == |Template|
  {
    assert c.Red? || c.Yellow? || c.Green?;
    var next := Overlay(current, LampFlags(states));
    '0' <= next[LampDigits[c]] <= '3' &&
    next[LampDigits[c]] == if c in states then LampChar(states[c]) else current[LampDigits[c]]
  }

  lemma LampWriteAtHolds(current: string, states: map<Color, LampState>, c: Color)
    requires LampReply(current) && |current| == |Template|
    ensures LampWriteAt(current, states, c)
  {
    if c in states {
      LampCharIsValue(states[c]);
    }
  }

  /**
   * A lamp write never needs a read first: on any lamp state the device holds,
   * applying the flags of a partial assignment changes exactly the named
   * colours to their new states and keeps the others.
   */
  lemma LampWriteKeepsOthers(current: string, states: map<Color, LampState>)
    requires LampReply(current) && |current| == |Template|
    ensures LampReply(Overlay(current, LampFlags(states)))
    ensures ParseLampFlags(Overlay(current, LampFlags(states))) == ParseLampFlags(current) + states
  {
    LampWriteShows(current, states);
    ParseLampFlagsUnique(Overlay(current, LampFlags(states)), ParseLampFlags(current) + states);
  }

  /** After a lamp write the device shows, for every colour, the digit of its old state updated by the write. */
  lemma LampWriteShows(current: string, states: map<Color, LampState>)
    requires LampReply(current) && |current| == |Template|
    ensures LampReply(Overlay(current, LampFlags(states)))
    ensures var next, expected := Overlay(current, LampFlags(states)), ParseLampFlags(current) + states;
      forall c :: c in LampDigits ==> c in expected && LampChar(expected[c]) == next[LampDigits[c]]
  {
    LampWriteAtHolds(current, states, Red);
    LampWriteAtHolds(current, states, Yellow);
    LampWriteAtHolds(current, states, Green);
    forall c | c in LampDigits ensures LampWriteAt(current, states, c) {
      LampWriteAtHolds(current, states, c);
    }
  }

  /*** Buzzer ***/

  /**
   * The buzzer flags for one mode: off writes 0 at both mode positions; a
   * mode writes 1 at its own position only and leaves the other mode's bit
   * as a wildcard.
   */
  function BuzzerFlags(state: BuzzerState): (flags: string)
    ensures |flags| == |Template|
    ensures state == BuzzerState.Off ==> forall m :: m in BuzzerDigits ==> flags[BuzzerDigits[m]] == '0'
    ensures state != BuzzerState.Off ==> flags[BuzzerDigits[state]] == '1'
    ensures state != BuzzerState.Off ==>
      forall m :: m in BuzzerDigits && m != state ==> flags[BuzzerDigits[m]] == Wildcard
    ensures forall i :: 0 <= i < |flags| && i !in BuzzerDigits.Values ==> flags[i] == Wildcard
  {
    BuzzerPositions();
    match state
    case Off => "XXX00XXX"
    case Continuous => "XXX1XXXX"
    case Intermittent => "XXXX1XXX"
  }

  lemma BuzzerPositions()
    ensures BuzzerDigits.Values == {3, 4}
  {
    assert BuzzerDigits[Continuous] == 3 && BuzzerDigits[Intermittent] == 4;
  }

  /** `build_buzzer_flags`: writes the mode bits into a copy of the template. */
  method BuildBuzzerFlags(state: BuzzerState) returns (flags: string)
    ensures flags == BuzzerFlags(state)
  {
    var flagList := new char[|Template|](i requires 0 <= i < |Template| => Template[i]);
    if state == BuzzerState.Off {
      for k := 0 to |BuzzerOrder|
        invariant forall i :: 0 <= i < flagList.Length && i !in BuzzerDigits.Values ==> flagList[i] == Wildcard
        invariant forall j :: 0 <= j < k ==> flagList[BuzzerDigits[BuzzerOrder[j]]] == '0'
        invariant forall j :: k <= j < |BuzzerOrder| ==> flagList[BuzzerDigits[BuzzerOrder[j]]] == Wildcard
      {
        flagList[BuzzerDigits[BuzzerOrder[k]]] := '0';
      }
      assert flagList[3] == flagList[BuzzerDigits[BuzzerOrder[0]]];
      assert flagList[4] == flagList[BuzzerDigits[BuzzerOrder[1]]];
    } else {
      flagList[BuzzerDigits[state]] := '1';
    }
    flags := flagList[..];
  }

  /** The bit of mode `m` is present and set. */
  predicate BuzzerBit(flags: string, m: BuzzerState)
    requires m in BuzzerDigits
  {
    BuzzerDigits[m] < |flags| && flags[BuzzerDigits[m]] == '1'
  }

  /** Every position the scan of `order` reads exists: it stops at the first set bit. */
  predicate Scannable(flags: string, order: seq<BuzzerState>)
    requires forall j :: 0 <= j < |order| ==> order[j] in BuzzerDigits
  {
    |order| == 0 ||
    (BuzzerDigits[order[0]] < |flags| &&
     (flags[BuzzerDigits[order[0]]] != '1' ==> Scannable(flags, order[1..])))
  }

  /** Entry k of `order` is the first whose bit is set. */
  predicate FirstSet(flags: string, order: seq<BuzzerState>, k: int)
    requires forall j :: 0 <= j < |order| ==> order[j] in BuzzerDigits
  {
    0 <= k < |order| && BuzzerBit(flags, order[k]) &&
    forall j :: 0 <= j < k ==> !BuzzerBit(flags, order[j])
  }

  /** The first mode of `order` whose bit is set, or off when none is. */
  function Scan(flags: string, order: seq<BuzzerState>): (state: BuzzerState)
    requires forall j :: 0 <= j < |order| ==> order[j] in BuzzerDigits
    requires Scannable(flags, order)
    ensures state == BuzzerState.Off ==> forall j :: 0 <= j < |order| ==> !BuzzerBit(flags, order[j])
    ensures state != BuzzerState.Off ==> exists k :: FirstSet(flags, order, k) && order[k] == state
    decreases |order|
  {
    if |order| == 0 then BuzzerState.Off
    else if flags[BuzzerDigits[order[0]]] == '1' then
      assert FirstSet(flags, order, 0);
      order[0]
    else
      var state := Scan(flags, order[1..]);
      assert state != BuzzerState.Off ==> exists k :: FirstSet(flags, order, k) && order[k] == state by {
        if state != BuzzerState.Off {
          var k :| FirstSet(flags, order[1..], k) && order[1..][k] == state;
          assert FirstSet(flags, order, k + 1) by {
            forall j | 0 <= j < k + 1 ensures !BuzzerBit(flags, order[j]) {
              if j > 0 {
                assert order[j] == order[1..][j - 1];
              }
            }
          }
        }
      }
      assert state == BuzzerState.Off ==> forall j :: 0 <= j < |order| ==> !BuzzerBit(flags, order[j]) by {
        if state == BuzzerState.Off {
          forall j | 0 <= j < |order| ensures !BuzzerBit(flags, order[j]) {
            if j > 0 {
              assert order[j] == order[1..][j - 1];
            }
          }
        }
      }
      state
  }

  predicate BuzzerReply(flags: string) {
    Scannable(flags, BuzzerOrder)
  }

  /** `parse_buzzer_flags`: continuous if its bit is set, else intermittent if its bit is set, else off. */
  function ParseBuzzerFlags(flags: string): (state: BuzzerState)
    requires BuzzerReply(flags)
    ensures state == Continuous <==> BuzzerBit(flags, Continuous)
    ensures state == Intermittent <==> !BuzzerBit(flags, Continuous) && BuzzerBit(flags, Intermittent)
    ensures state == BuzzerState.Off <==> !BuzzerBit(flags, Continuous) && !BuzzerBit(flags, Intermittent)
  {
    Scan(flags, BuzzerOrder)
  }

  /** The buzzer reads only the two mode bits: replies that agree on them read alike. */
  lemma ParseBuzzerFlagsBits(a: string, b: string)
    requires |a| == |b| == |Template| && BuzzerReply(a) && a[3] == b[3] && a[4] == b[4]
    ensures BuzzerReply(b) && ParseBuzzerFlags(b) == ParseBuzzerFlags(a)
  {
    assert BuzzerOrder[1..][1..] == [];
    assert Scannable(b, BuzzerOrder[1..][1..]);
  }

  /** Every buzzer mode survives building and parsing. */
  lemma BuzzerRoundTrip(state: BuzzerState)
    ensures BuzzerReply(BuzzerFlags(state))
    ensures ParseBuzzerFlags(BuzzerFlags(state)) == state
  {
  }

  /**
   * What the device reports after a buzzer write. Off and continuous read back
   * as written; intermittent reads back as continuous whenever the continuous
   * bit was already set, because the write leaves that bit a wildcard.
   */
  lemma BuzzerWrite(current: string, state: BuzzerState)
    requires |current| == |Template|
    ensures BuzzerReply(Overlay(current, BuzzerFlags(state)))
    ensures ParseBuzzerFlags(Overlay(current, BuzzerFlags(state))) ==
      if state == Intermittent && current[3] == '1' then Continuous else state
  {
    var next := Overlay(current, BuzzerFlags(state));
    assert next[3] == if state == Intermittent then current[3] else BuzzerFlags(state)[3];
    assert next[4] == if state == Continuous then current[4] else BuzzerFlags(state)[4];
  }

  /** Buzzer flags wildcard the lamp positions, so a buzzer write keeps every lamp. */
  lemma BuzzerFlagsKeepLamps(current: string, state: BuzzerState)
    requires LampReply(current) && |current| == |Template|
    ensures LampReply(Overlay(current, BuzzerFlags(state)))
    ensures ParseLampFlags(Overlay(current, BuzzerFlags(state))) == ParseLampFlags(current)
  {
    var next := Overlay(current, BuzzerFlags(state));
    assert next[..3] == current[..3];
    ParseLampFlagsPrefix(current, next);
  }

  /** Any reply with both mode bits set reads as continuous: the table order decides. */
  lemma BuzzerBothBits(flags: string)
    requires BuzzerReply(flags) && |flags| > 4 && flags[3] == '1' && flags[4] == '1'
    ensures ParseBuzzerFlags(flags) == Continuous
  {
  }

  /*** Digital outputs ***/

  function SwitchChar(state: Switch): char {
    assert state.Off? || state.On?;
    DigitChar(DoStates[state])
  }

  function DoSlot(states: map<int, Switch>, term: int): char {
    if term in states then SwitchChar(states[term]) else Wildcard
  }

  /**
   * The output flags for a partial assignment of states to terminals 1-4:
   * terminal t's bit at position t - 1, the wildcard elsewhere.
   */
  function DoFlags(states: map<int, Switch>): (flags: string)
    requires states.Keys <= DoDigits.Keys
    ensures |flags| == |Template|
    ensures forall t :: t in DoDigits ==> flags[DoDigits[t]] == DoSlot(states, t)
    ensures forall i :: 4 <= i < |flags| ==> flags[i] == Wildcard
  {
    [DoSlot(states, 1), DoSlot(states, 2), DoSlot(states, 3), DoSlot(states, 4)] + "XXXX"
  }

  /** `build_do_flags`: writes each given terminal's bit into a copy of the template. */
  method BuildDoFlags(states: map<int, Switch>) returns (flags: string)
    requires states.Keys <= DoDigits.Keys
    ensures flags == DoFlags(states)
  {
    var flagList := new char[|Template|](i requires 0 <= i < |Template| => Template[i]);
    var pending := states.Keys;
    while pending != {}
      invariant pending <= states.Keys
      invariant flagList[..] == DoFlags(states - pending)
      decreases pending
    {
      var term :| term in pending;
      DoFlagsStep(states, pending, term);
      flagList[DoDigits[term]] := SwitchChar(states[term]);
      pending := pending - {term};
    }
    assert states - pending == states;
    flags := flagList[..];
  }

  /** Writing one more terminal's bit extends the flags of the terminals written so far. */
  lemma DoFlagsStep(states: map<int, Switch>, pending: set<int>, term: int)
    requires states.Keys <= DoDigits.Keys && pending <= states.Keys && term in pending
    ensures DoFlags(states - (pending - {term})) ==
      DoFlags(states - pending)[DoDigits[term] := SwitchChar(states[term])]
  {
    var before, after := states - pending, states - (pending - {term});
    assert term == 1 || term == 2 || term == 3 || term == 4;
    forall t | t in DoDigits && t != term ensures DoSlot(after, t) == DoSlot(before, t) {
    }
  }

  /** A terminal reply the parsers accept: 0 or 1 at each of the four terminal positions. */
  predicate TerminalReply(flags: string) {
    |flags| >= 4 && forall i :: 0 <= i < 4 ==> flags[i] == '0' || flags[i] == '1'
  }

  /** Every terminal state's digit is a key of the inverted tables, leading back to that state. */
  lemma SwitchCharIsValue(state: Switch)
    ensures SwitchChar(state) in DoValues && DoValues[SwitchChar(state)] == state
    ensures SwitchChar(state) == '0' || SwitchChar(state) == '1'
  {
    DoValuesTable();
  }

  lemma SwitchCharInjective(a: Switch, b: Switch)
    requires SwitchChar(a) == SwitchChar(b)
    ensures a == b
  {
    SwitchCharIsValue(a);
    SwitchCharIsValue(b);
  }

  /** `parse_do_flags`: every terminal's state, terminal t read at position t - 1. */
  function ParseDoFlags(flags: string): (states: map<int, Switch>)
    requires TerminalReply(flags)
    ensures states.Keys == {1, 2, 3, 4}
    ensures forall t :: t in states ==> SwitchChar(states[t]) == flags[t - 1]
  {
    DoValuesTable();
    TerminalLayout();
    var states := map t | t in DoDigits :: DoValues[flags[DoDigits[t]]];
    assert forall t :: t in states ==> SwitchChar(states[t]) == flags[t - 1] by {
      forall t | t in states ensures SwitchChar(states[t]) == flags[t - 1] {
        SwitchCharIsValue(states[t]);
      }
    }
    states
  }

  /** The output and input tables put terminal t at position t - 1. */
  lemma TerminalLayout()
    ensures DoDigits.Keys == DiDigits.Keys == {1, 2, 3, 4}
    ensures forall t :: t in DoDigits ==> DoDigits[t] == DiDigits[t] == t - 1
  {
  }

  /** The output parse at one terminal: terminal t of 1-4 reads character t - 1. */
  lemma ParseDoFlagsAt(flags: string, term: int)
    requires TerminalReply(flags) && term in DoDigits
    ensures 1 <= term <= 4 && term in ParseDoFlags(flags)
    ensures SwitchChar(ParseDoFlags(flags)[term]) == flags[term - 1]
  {
    TerminalLayout();
  }

  /** Building from a state that names all four terminals and parsing it back gives that state. */
  lemma DoRoundTrip(states: map<int, Switch>)
    requires states.Keys == DoDigits.Keys
    ensures TerminalReply(DoFlags(states))
    ensures ParseDoFlags(DoFlags(states)) == states
  {
    var flags := DoFlags(states);
    assert states.Keys == {1, 2, 3, 4} by { TerminalLayout(); }
    assert flags[0] == SwitchChar(states[1]) && flags[1] == SwitchChar(states[2]);
    assert flags[2] == SwitchChar(states[3]) && flags[3] == SwitchChar(states[4]);
    SwitchCharIsValue(states[1]);
    SwitchCharIsValue(states[2]);
    SwitchCharIsValue(states[3]);
    SwitchCharIsValue(states[4]);
    forall t | 1 <= t <= 4 ensures SwitchChar(states[t]) == flags[t - 1] {
      assert t == 1 || t == 2 || t == 3 || t == 4;
    }
    ParseDoFlagsUnique(flags, states);
  }

  /** Parsing an output reply and building from the result keeps the four bits and wildcards the rest. */
  lemma DoReplyRoundTrip(flags: string)
    requires TerminalReply(flags) && |flags| == |Template|
    ensures DoFlags(ParseDoFlags(flags)) == flags[..4] + "XXXX"
  {
    var built := DoFlags(ParseDoFlags(flags));
    assert built[0] == flags[DoDigits[1]];
    assert built[1] == flags[DoDigits[2]];
    assert built[2] == flags[DoDigits[3]];
    assert built[3] == flags[DoDigits[4]];
  }

  /**
   * After an output write, terminal t's position holds a bit: the new state's
   * if the write names t, the old state's otherwise.
   */
  predicate DoWriteAt(current: string, states: map<int, Switch>, t: int)
    requires TerminalReply(current) && |current| == |Template|
    requires states.Keys <= DoDigits.Keys && 1 <= t <= 4
  {
    var next, expected := Overlay(current, DoFlags(states)), ParseDoFlags(current) + states;
    (next[t - 1] == '0' || next[t - 1] == '1') && t in expected && SwitchChar(expected[t]) == next[t - 1]
  }

  lemma DoWriteAtHolds(current: string, states: map<int, Switch>, t: int)
    requires TerminalReply(current) && |current| == |Template|
    requires states.Keys <= DoDigits.Keys && 1 <= t <= 4
    ensures DoWriteAt(current, states, t)
  {
    TerminalLayout();
    assert DoDigits[t] == t - 1;
    if t in states {
      SwitchCharIsValue(states[t]);
    }
  }

  /** The parse is the only assignment of all four terminals whose bits the reply shows. */
  lemma ParseDoFlagsUnique(flags: string, states: map<int, Switch>)
    requires TerminalReply(flags)
    requires states.Keys == {1, 2, 3, 4}
    requires forall t :: 1 <= t <= 4 ==> SwitchChar(states[t]) == flags[t - 1]
    ensures ParseDoFlags(flags) == states
  {
    var parsed := ParseDoFlags(flags);
    SwitchCharInjective(parsed[1], states[1]);
    SwitchCharInjective(parsed[2], states[2]);
    SwitchCharInjective(parsed[3], states[3]);
    SwitchCharInjective(parsed[4], states[4]);
    SameTerminals(parsed, states);
  }

  /** Two assignments of the four terminals are equal when they agree on each. */
  lemma SameTerminals(a: map<int, Switch>, b: map<int, Switch>)
    requires a.Keys == b.Keys == {1, 2, 3, 4}
    requires a[1] == b[1] && a[2] == b[2] && a[3] == b[3] && a[4] == b[4]
    ensures a == b
  {
  }

  /** After an output write the device shows, for every terminal, the bit of its old state updated by the write. */
  lemma DoWriteShows(current: string, states: map<int, Switch>)
    requires TerminalReply(current) && |current| == |Template|
    requires states.Keys <= DoDigits.Keys
    ensures TerminalReply(Overlay(current, DoFlags(states)))
    ensures forall t :: 1 <= t <= 4 ==> DoWriteAt(current, states, t)
  {
    var next := Overlay(current, DoFlags(states));
    forall i | 0 <= i < 4 ensures next[i] == '0' || next[i] == '1' {
      DoWriteAtHolds(current, states, i + 1);
    }
    forall t | 1 <= t <= 4 ensures DoWriteAt(current, states, t) {
      DoWriteAtHolds(current, states, t);
    }
  }

  /** An output write changes exactly the named terminals and keeps the others. */
  lemma DoWriteKeepsOthers(current: string, states: map<int, Switch>)
    requires TerminalReply(current) && |current| == |Template|
    requires states.Keys <= DoDigits.Keys
    ensures TerminalReply(Overlay(current, DoFlags(states)))
    ensures ParseDoFlags(Overlay(current, DoFlags(states))) == ParseDoFlags(current) + states
  {
    TerminalLayout();
    var next, expected := Overlay(current, DoFlags(states)), ParseDoFlags(current) + states;
    DoWriteShows(current, states);
    assert expected.Keys == {1, 2, 3, 4};
    forall t | 1 <= t <= 4 ensures t in expected && SwitchChar(expected[t]) == next[t - 1] {
      assert DoWriteAt(current, states, t);
    }
    ParseDoFlagsUnique(next, expected);
  }

  /*** Digital inputs ***/

  /** `parse_di_flags`: terminal t is on exactly when character t - 1 is 1. */
  function ParseDiFlags(flags: string): (states: map<int, Switch>)
    requires TerminalReply(flags)
    ensures states.Keys == {1, 2, 3, 4}
    ensures forall t :: t in states ==> (states[t] == Switch.On <==> flags[t - 1] == '1')
  {
    DiValuesTable();
    TerminalLayout();
    var states := map t | t in DiDigits :: DiValues[flags[DiDigits[t]]];
    assert forall t :: t in states ==> (states[t] == Switch.On <==> flags[t - 1] == '1') by {
      forall t | t in states ensures states[t] == Switch.On <==> flags[t - 1] == '1' {
        assert states[t] == DiValues[flags[t - 1]];
      }
    }
    states
  }

  /** Inputs and outputs share one layout: a reply decodes to the same terminal states either way. */
  lemma DiMatchesDo(flags: string)
    requires TerminalReply(flags)
    ensures ParseDiFlags(flags) == ParseDoFlags(flags)
  {
    var di, dout := ParseDiFlags(flags), ParseDoFlags(flags);
    forall t | t in di ensures di[t] == dout[t] {
      SwitchCharIsValue(dout[t]);
    }
  }

  /*** Voice ***/

  /**
   * `build_voice_flags`: stop is all zeros; playing is 1, the two-digit voice
   * number, then either zeros (repeat forever) or 1, the two-digit repeat count
   * and two zeros.
   */
  function BuildVoiceFlags(state: VoiceState): (flags: string)
    ensures |flags| >= |Template|
    ensures state.Playing? && 0 <= state.number < 100 && 0 <= state.repeat < 100 ==> |flags| == |Template|
    ensures flags[0] == '0' <==> state == Stop
  {
    match state
    case Stop => "00000000"
    case Playing(number, repeat) =>
      if repeat == 0 then "1" + Format02(number) + "00000"
      else "1" + Format02(number) + "1" + Format02(repeat) + "00"
  }

  /** Python's `s[i:j]`: a slice clipped to the string. */
  function Slice(s: string, i: nat, j: nat): (t: string)
    requires i <= j
    ensures |t| == (if j <= |s| then j - i else if i <= |s| then |s| - i else 0)
    ensures forall k :: 0 <= k < |t| ==> t[k] == s[i + k]
  {
    if j <= |s| then s[i..j] else if i <= |s| then s[i..] else ""
  }

  /** A field `int()` accepts: a non-empty run of digits. */
  predicate DecimalField(s: string, i: nat, j: nat)
    requires i <= j
  {
    |Slice(s, i, j)| >= 1 && AllDigits(Slice(s, i, j))
  }

  /** A voice reply the parser accepts: stop, or a number at 1-2 and a repeat count at 4-5. */
  predicate VoiceReply(flags: string) {
    |flags| >= 1 && (flags[0] != '0' ==> DecimalField(flags, 1, 3) && DecimalField(flags, 4, 6))
  }

  /** `parse_voice_flags`: stop exactly when the first character is 0, else the two decimal fields. */
  function ParseVoiceFlags(flags: string): (state: VoiceState)
    requires VoiceReply(flags)
    ensures state == Stop <==> flags[0] == '0'
    ensures state.Playing? ==> 0 <= state.number < 100 && 0 <= state.repeat < 100
    ensures state.Playing? ==>
      state.number == DecimalValue(Slice(flags, 1, 3)) && state.repeat == DecimalValue(Slice(flags, 4, 6))
  {
    if flags[0] == '0' then Stop
    else
      DecimalValueOfTwoDigits(Slice(flags, 1, 3));
      DecimalValueOfTwoDigits(Slice(flags, 4, 6));
      Playing(DecimalValue(Slice(flags, 1, 3)), DecimalValue(Slice(flags, 4, 6)))
  }

  /**
   * A device reply outside the builder's layout (repeat bit and both fields
   * set, trailing digits not zero) still decodes its two fields.
   */
  lemma ParseVoiceDeviceReply()
    ensures VoiceReply("10911010") && ParseVoiceFlags("10911010") == Playing(9, 10)
  {
    var flags := "10911010";
    assert Slice(flags, 1, 3) == "09" && Slice(flags, 4, 6) == "10";
    TwoDigitValue("09");
    TwoDigitValue("10");
  }

  /** Stop, and playing any number with any repeat count of at most two digits, survive building and parsing. */
  lemma VoiceRoundTrip(state: VoiceState)
    requires state.Playing? ==> 0 <= state.number < 100 && 0 <= state.repeat < 100
    ensures VoiceReply(BuildVoiceFlags(state))
    ensures ParseVoiceFlags(BuildVoiceFlags(state)) == state
  {
    var flags := BuildVoiceFlags(state);
    if state.Playing? {
      var nn := Format02(state.number);
      var rr := Format02(state.repeat);
      assert Format02(0) == "00";
      assert flags == "1" + nn + (if state.repeat == 0 then "0" else "1") + rr + "00";
      assert Slice(flags, 1, 3) == nn;
      assert Slice(flags, 4, 6) == rr;
    }
  }

  /** The replies the builder can produce: stop, play forever, or play a counted number of times. */
  predicate VoiceLayout(flags: string) {
    |flags| == |Template| && AllDigits(flags) &&
    (flags == "00000000" ||
     (flags[0] == '1' && flags[6..] == "00" &&
      ((flags[3] == '1' && flags[4..6] != "00") || flags[3..6] == "000")))
  }

  /** Every reply in the builder's layout survives parsing and building unchanged. */
  lemma VoiceReplyRoundTrip(flags: string)
    requires VoiceLayout(flags)
    ensures VoiceReply(flags)
    ensures BuildVoiceFlags(ParseVoiceFlags(flags)) == flags
  {
    if flags[0] != '0' {
      var nn, rr := flags[1..3], flags[4..6];
      assert Slice(flags, 1, 3) == nn && Slice(flags, 4, 6) == rr;
      var state := ParseVoiceFlags(flags);
      assert state == Playing(DecimalValue(nn), DecimalValue(rr));
      Format02OfField(nn);
      Format02OfField(rr);
      assert Format02(0) == "00";
      if flags[3] == '1' && rr != "00" {
        assert state.repeat != 0;
        CountedShape(flags);
      } else {
        assert rr == "00";
        assert state.repeat == 0;
        ForeverShape(flags);
      }
    }
  }

  lemma CountedShape(flags: string)
    requires |flags| == |Template| && flags[0] == '1' && flags[3] == '1' && flags[6..] == "00"
    ensures flags == "1" + flags[1..3] + "1" + flags[4..6] + "00"
  {
    assert flags[..1] == "1" && flags[3..4] == "1";
    assert flags == flags[..1] + flags[1..3] + flags[3..4] + flags[4..6] + flags[6..];
  }

  lemma ForeverShape(flags: string)
    requires |flags| == |Template| && flags[0] == '1' && flags[3..6] == "000" && flags[6..] == "00"
    ensures flags == "1" + flags[1..3] + "00000"
  {
    assert flags[..1] == "1";
    assert flags[3..] == flags[3..6] + flags[6..] == "00000";
    assert flags == flags[..1] + flags[1..3] + flags[3..];
  }
}

=== FILE: text.dfy ===
/**
 * The few pieces of Python text handling the client relies on: `str()` of an
 * int, `int()` of a digit string, the `'{0:02}'` format, `' '.join` and, as
 * its partner, splitting a line at single spaces.
 */
module Text {

  predicate IsDigit(c: char) {
    '0' <= c <= '9'
  }

  predicate AllDigits(s: string) {
    forall i :: 0 <= i < |s| ==> IsDigit(s[i])
  }

  function DigitValue(c: char): nat
    requires IsDigit(c)
  {
    c as int - '0' as int
  }

  /** The character of a decimal digit. */
  function DigitChar(d: nat): (c: char)
    requires d < 10
    ensures IsDigit(c) && DigitValue(c) == d
  {
    ('0' as int + d) as char
  }

  lemma DigitCharOfValue(c: char)
    requires IsDigit(c)
    ensures DigitChar(DigitValue(c)) == c
  {
  }

  /** Python's `str(n)` for n >= 0: decimal digits, no leading zero. */
  function NatToString(n: nat): (s: string)
    ensures |s| >= 1 && AllDigits(s)
    ensures s[0] == '0' <==> n == 0
    ensures n < 10 ==> |s| == 1
    ensures n >= 10 ==> |s| >= 2
    decreases n
  {
    if n < 10 then [DigitChar(n)] else NatToString(n / 10) + [DigitChar(n % 10)]
  }

  /** Python's `int(s)` on a string of decimal digits. */
  function DecimalValue(s: string): nat
    requires AllDigits(s)
    decreases |s|
  {
    if s == [] then 0 else 10 * DecimalValue(s[..|s| - 1]) + DigitValue(s[|s| - 1])
  }

  /** Ten to the power k. */
  function Pow10(k: nat): nat {
    if k == 0 then 1 else 10 * Pow10(k - 1)
  }

  /** A string of k digits reads as a value below ten to the k, and a single digit as itself. */
  lemma {:induction false} DecimalValueBound(s: string)
    requires AllDigits(s)
    ensures DecimalValue(s) < Pow10(|s|)
    ensures |s| == 1 ==> DecimalValue(s) == DigitValue(s[0])
    decreases |s|
  {
    if s != [] {
      var init := s[..|s| - 1];
      DecimalValueBound(init);
      assert Pow10(|s|) == 10 * Pow10(|init|);
      if |s| == 1 {
        assert init == [];
      }
    }
  }

  lemma {:induction false} DecimalValueOfNatToString(n: nat)
    ensures DecimalValue(NatToString(n)) == n
    decreases n
  {
    if n >= 10 {
      DecimalValueOfNatToString(n / 10);
      var s := NatToString(n);
      assert s[..|s| - 1] == NatToString(n / 10);
    }
  }

  /** A field of at most two digits reads back as a value below 100. */
  lemma DecimalValueOfTwoDigits(s: string)
    requires AllDigits(s) && |s| <= 2
    ensures DecimalValue(s) < 100
  {
    if |s| == 2 {
      assert s[..1][..0] == [];
    }
  }

  /** Python's `str(n)` for any int: a minus sign before the digits of a negative value. */
  function IntToString(n: int): (s: string)
    ensures |s| >= 1 && ' ' !in s && IsDigit(s[|s| - 1])
    ensures n >= 0 ==> AllDigits(s) && DecimalValue(s) == n
    ensures n < 0 ==> s[0] == '-' && AllDigits(s[1..]) && DecimalValue(s[1..]) == -n
    ensures n >= 0 ==> (s[0] == '0' <==> n == 0)
    ensures n < 0 ==> |s| >= 2 && s[1] != '0'
  {
    if n < 0 then
      DecimalValueOfNatToString(-n);
      var s := "-" + NatToString(-n);
      assert s[1..] == NatToString(-n);
      s
    else
      DecimalValueOfNatToString(n);
      NatToString(n)
  }

  /** The small values the client passes as units and durations. */
  lemma SmallIntStrings()
    ensures IntToString(0) == "0" && IntToString(1) == "1" && IntToString(2) == "2"
  {
  }

  /** Different ints print differently. */
  lemma IntToStringInjective(a: int, b: int)
    requires a != b
    ensures IntToString(a) != IntToString(b)
  {
    if a < 0 && b >= 0 {
      assert IntToString(a)[0] == '-' && IsDigit(IntToString(b)[0]);
    } else if a >= 0 && b < 0 {
      assert IntToString(b)[0] == '-' && IsDigit(IntToString(a)[0]);
    }
  }

  /**
   * Python's `'{0:02}'.format(n)`: at least two characters, a non-negative
   * value padded with a leading zero; a negative value is a sign and digits,
   * already two characters wide.
   */
  function Format02(n: int): (s: string)
    ensures |s| >= 2
    ensures 0 <= n < 100 ==> |s| == 2
    ensures n >= 0 ==> AllDigits(s) && DecimalValue(s) == n
    ensures n < 0 ==> s[0] == '-' && AllDigits(s[1..]) && DecimalValue(s[1..]) == -n && s[1] != '0'
    ensures n >= 10 ==> s[0] != '0'
  {
    if n < 0 then
      DecimalValueOfNatToString(-n);
      var s := "-" + NatToString(-n);
      assert s[1..] == NatToString(-n);
      s
    else if n < 10 then
      var s := "0" + NatToString(n);
      assert s[..1] == "0" && s[..1][..0] == [];
      assert DecimalValue(s[..1]) == 0;
      s
    else
      DecimalValueOfNatToString(n);
      NatToStringWidth(n);
      NatToString(n)
  }

  lemma NatToStringWidth(n: nat)
    requires n >= 10
    ensures n < 100 ==> |NatToString(n)| == 2
  {
  }

  /** Formatting a two-digit field back gives the field itself, leading zero included. */
  lemma Format02OfField(s: string)
    requires |s| == 2 && AllDigits(s)
    ensures Format02(DecimalValue(s)) == s
  {
    TwoDigitValue(s);
    var hi, lo := DigitValue(s[0]), DigitValue(s[1]);
    DigitCharOfValue(s[0]);
    DigitCharOfValue(s[1]);
    if hi == 0 {
      assert Format02(lo) == "0" + [DigitChar(lo)];
    } else {
      NatToStringTwoDigits(hi, lo);
    }
  }

  /** The decimal text of a two-digit number is its two digits. */
  lemma NatToStringTwoDigits(hi: nat, lo: nat)
    requires 1 <= hi < 10 && lo < 10
    ensures NatToString(10 * hi + lo) == [DigitChar(hi), DigitChar(lo)]
  {
    var n := 10 * hi + lo;
    assert n / 10 == hi && n % 10 == lo;
    assert NatToString(n) == [DigitChar(hi)] + [DigitChar(lo)];
  }

  lemma TwoDigitValue(s: string)
    requires |s| == 2 && AllDigits(s)
    ensures DecimalValue(s) == 10 * DigitValue(s[0]) + DigitValue(s[1])
  {
    assert s[..1] == [s[0]] && s[..1][..0] == [];
    assert DecimalValue(s[..1]) == DigitValue(s[0]);
  }

  /** Python's `' '.join(words)`. */
  function Join(words: seq<string>): string {
    if |words| == 0 then ""
    else if |words| == 1 then words[0]
    else words[0] + " " + Join(words[1..])
  }

  /** The number of characters in all the words together. */
  function TotalLength(words: seq<string>): nat {
    if |words| == 0 then 0 else |words[0]| + TotalLength(words[1..])
  }

  /** A join is as long as its words plus one space between each neighbouring pair; no words join to "". */
  lemma {:induction false} JoinLength(words: seq<string>)
    ensures |words| == 0 ==> Join(words) == ""
    ensures |words| >= 1 ==> |Join(words)| == TotalLength(words) + |words| - 1
  {
    if |words| > 1 {
      JoinLength(words[1..]);
    }
  }

  /** Python's `line.split(' ')`: the pieces between single spaces. */
  function Split(line: string): (words: seq<string>)
    ensures |words| >= 1
  {
    if line == [] then [""]
    else
      var rest := Split(line[1..]);
      if line[0] == ' ' then [""] + rest else [[line[0]] + rest[0]] + rest[1..]
  }

  predicate NoSpaces(words: seq<string>) {
    forall i :: 0 <= i < |words| ==> ' ' !in words[i]
  }

  /** Joining a word onto a non-empty list puts one space between them. */
  lemma JoinCons(w: string, rest: seq<string>)
    requires |rest| >= 1
    ensures Join([w] + rest) == w + " " + Join(rest)
  {
    assert ([w] + rest)[1..] == rest;
  }

  /** Joining two non-empty word lists is joining their joins. */
  lemma {:induction false} JoinAppend(a: seq<string>, b: seq<string>)
    requires |a| >= 1 && |b| >= 1
    ensures Join(a + b) == Join(a) + " " + Join(b)
    decreases |a|
  {
    if |a| > 1 {
      JoinAppend(a[1..], b);
      assert (a + b)[1..] == a[1..] + b;
    }
  }

  /** A word without spaces glues onto the first piece of whatever follows it. */
  lemma {:induction false} SplitAfterWord(w: string, rest: string)
    requires ' ' !in w
    ensures Split(w + rest) == [w + Split(rest)[0]] + Split(rest)[1..]
    decreases |w|
  {
    if w == [] {
      assert w + rest == rest;
      assert w + Split(rest)[0] == Split(rest)[0];
    } else {
      SplitAfterWord(w[1..], rest);
      assert (w + rest)[1..] == w[1..] + rest;
      assert [w[0]] + (w[1..] + Split(rest)[0]) == w + Split(rest)[0];
    }
  }

  /** Splitting a joined line gives back its words, when no word holds a space. */
  lemma {:induction false} SplitJoin(words: seq<string>)
    requires |words| >= 1 && NoSpaces(words)
    ensures Split(Join(words)) == words
    decreases |words|
  {
    if |words| == 1 {
      SplitAfterWord(words[0], "");
      assert words[0] + "" == words[0];
    } else {
      SplitJoin(words[1..]);
      SplitAfterWord(words[0], " " + Join(words[1..]));
      assert words[0] + " " + Join(words[1..]) == words[0] + (" " + Join(words[1..]));
      assert (" " + Join(words[1..]))[1..] == Join(words[1..]);
      assert Split(" " + Join(words[1..])) == [""] + words[1..];
      assert words[0] + "" == words[0];
      assert words == [words[0]] + words[1..];
    }
  }
}

=== FILE: wrappers.dfy ===
/** An optional value: the model of a Python argument that may be `None`. */
module Wrappers {

  datatype Option<+T> = None | Some(value: T)
}
